=== FILE: README.md ===
# masraf-takip: a Dafny model of the WhatsApp → Excel expense tracker

The system receives WhatsApp messages through a Twilio webhook. It treats
every image attachment as a photographed receipt, invoice or bank slip. It
asks a vision model to turn the image into a JSON record. It appends that
record as one 13-column row to an Excel ledger, coloured by category. A
text message `ozet`, `summary` or `rapor` instead returns the last ten
entries and their total.

This project models the pure logic of `app.py` in Dafny and proves
properties of it. It has one module per concern:

| file | module | models |
|---|---|---|
| `wrappers.dfy` | `Wrappers` | `Option` and `Result` |
| `text.dfy` | `PyText` | the Python `str` operations the program relies on: `strip()`, `in`, `split(sep)[1]`, `lower()`, `sep.join()`, `str(n)` |
| `values.dfy` | `Values` | JSON values as `json.loads` hands them over, Python truthiness, `dict.get`, `str()` |
| `ledger.dfy` | `Ledger` | `HEADERS`, `CATEGORY_COLORS`, `get_or_create_workbook` / `_write_header`, `append_expense`, openpyxl's cell-writing rules and `max_row` |
| `extraction.dfy` | `Extraction` | `analyze_image`: the mime type taken from `Content-Type` and the cleanup of a fenced reply; download, model call and JSON parse are parameters |
| `summary.dfy` | `Summary` | `_generate_summary`: the rows selected, their order, the total, the text, and every failure message |
| `webhook.dfy` | `Webhook` | `webhook`: text-command routing, the loop over attachments, the result lines and the reply |

The spreadsheet file is a value:

```
Store = Missing | Unreadable(reason) | Workbook(rows: Sheet)
```

Row `k` of the sheet is `rows[k - 1]`. Writing the file means returning a new
`Store`. openpyxl's sheet reaches down to the last row that holds a cell, and
`max_row` counts up to that row. `Ledger.Sheet` is therefore a sequence of
rows whose last row, if any, holds a cell. A row with no cell cannot trail
the sheet, so `max_row` is the number of rows (`Ledger.MaxRow`). Every store
the program builds keeps this: the header row and every appended row hold 13
cells.

A JSON number is a Python `int` when it has no fraction or exponent, and a
`float` otherwise (`Values.Int`, `Values.Float`). A cell written by
`append_expense` keeps that type in memory (`Ledger.IntCell`,
`Ledger.FloatCell`). An `int` is printed in decimal (`PyText.IntToString`),
so `125` shows as `125`. How a float is printed (`125.0`, `125.5`) is a
parameter.

The store holds the cells as they were written. The file does not give every
cell back as it was written, and `Ledger.Reloaded` states the differences:

- `wb.save` writes a number as its `"%.16g"` text.
- `load_workbook` reads a number without `.`, `e` or `E` as an `int`, so a
  whole float below 10^16 in magnitude comes back as an `int`.
- An empty text is saved as a cell without a value and comes back empty.

Every call of `get_or_create_workbook` loads the file anew, so the summary
reads the rows through `Ledger.Reloaded`. An amount the model returned as
`125.0` is therefore listed as `125` (`Summary.WholeAmountListedAsInt`), and
no amount changes in the total (`Summary.AmountReloaded`). Appending only
adds a row, and a reloaded cell is saved with the same text, so the earlier
rows' cells stay as written.

A handler run takes a store and the request's form fields. It returns the
new store and either the reply text or `ServerError`. `ServerError` stands
for an exception escaping the Flask handler.

The loop over the attachments (`Webhook.ProcessAll`) takes its loop body as
a value. Its properties are proved for any body that keeps the
per-attachment guarantee `Webhook.StepKeeps`, and `Webhook.ItemStepIsLawful`
shows that the handler's body does.

Everything the program delegates to the outside world is a function-valued
parameter:

- the authenticated media download;
- the vision-model call;
- `json.loads`;
- `int()` on `NumMedia`;
- `float()` on a cell's text;
- Python's `str()` of a float;
- the `:,.2f` formatting of the total;
- the clock. `append_expense` reads it anew for each attachment, so each
  attachment has its own reading: `clock(i)` for attachment `i`.

Some behaviours of the code are easy to misread:

- The media download is one authenticated GET with the account SID and the
  auth token (`app.py:141`).
- An unknown category is stored exactly as the model returned it. It is
  not normalised to "Diğer"; only the row colour falls back to `F5F5F5`.
- A `kategori`, `para_birimi` or other field that is present but `null`
  is stored as null. The `.get(key, default)` default applies only when the
  key is absent. Only `tarih` and `saat` fall back on any falsy value.
- A request can fail as a whole. The failing cases are:
  - `NumMedia` is not an integer;
  - the ledger file cannot be loaded or a value cannot be written into a
    cell;
  - the model's reply is a truthy JSON value other than an object.

  In each case the exception escapes the handler. This is not caught per
  attachment.
- On an existing but empty sheet, openpyxl reports `max_row` as 1. The
  first row written there is row 2, and row 1 stays empty.
- The summary fails with the message of an `IndexError` when the widest row
  of the sheet has fewer than five cells. It fails with the load error's
  message when the file cannot be loaded. On a ledger the program itself
  wrote, neither happens (`Summary.SummaryOfWellformed`).

`PyText.Lower` maps only `A`–`Z` and the Kelvin sign `K` (U+212A) to
lower case. This is enough for the keyword test. The only other characters
that Python's `lower()` sends into ASCII are `İ` (U+0130), which becomes
`i` followed by a combining dot, and nothing else. None of the keywords
contains a `k` or an `i`, so no other character can turn a body into a
keyword. The keyword tuple in `app.py:194` lists `"ozet"` twice. The set
modelled is `{"ozet", "summary", "rapor"}`.

## Model

| member | source | states |
|---|---|---|
| PyText.LeadFrom | app.py:165 | the leading whitespace of `strip()`: every character skipped is whitespace, and the scan stops at the end or at a non-whitespace character |
| PyText.EndFrom | app.py:165 | the trailing whitespace of `strip()`: every character cut from the end is whitespace, and the cut stops at the start of the kept text or after a non-whitespace character |
| PyText.Strip | app.py:165 | `strip()`: the result is the slice between the leading and the trailing whitespace, and it neither starts nor ends with whitespace |
| PyText.StripPadded | app.py:185 | stripping any whitespace padding off a text that has none at its ends gives back exactly that text |
| PyText.StripIdempotent | app.py:171 | stripping a stripped text changes nothing |
| PyText.FindFrom | app.py:167-168 | the index found is an occurrence of the pattern, and no occurrence starts between the start and it; `None` only when there is no occurrence at all from the start |
| PyText.ContainsIffOccurs | app.py:167 | `pat in s` holds exactly when the pattern occurs at some index |
| PyText.SplitSecond | app.py:168 | `split(sep)[1]`: the text after the first separator, up to the next separator or the end; it contains no separator |
| PyText.Lower | app.py:194 | `lower()` keeps the length and lower-cases each character in place |
| PyText.Join | app.py:229 | `sep.join(parts)` starts with the first part, and is longer than it by at least the separator when there are two parts or more |
| PyText.JoinEmpty | app.py:229 | a join with a non-empty separator is empty exactly when there are no parts, or one empty part |
| PyText.NatToString | app.py:224 | `str(n)` is a non-empty string of decimal digits whose value is `n`, with no leading zero except in `"0"` itself, so it is Python's canonical spelling |
| PyText.NatToStringInjective | app.py:224 | different row numbers are printed differently |
| PyText.IntToString | app.py:219-220 | `str(n)` of an `int`: its decimal digits, after a minus sign when negative, reading back as the number, with no leading zero except in `"0"` itself |
| PyText.IntToStringInjective | app.py:219-220 | different integers are printed differently |
| Values.Get | app.py:85 | `data.get(key, default)` is the stored value when the key is present, and the default only when it is absent |
| Ledger.ColourLookup | app.py:85-86 | each of the eleven category names gets its own colour from `CATEGORY_COLORS`; every other hashable value gets `F5F5F5`; only a list or an object as category fails the lookup |
| Ledger.NamedColour | app.py:42-54 | each category name looks up its own colour in `CATEGORY_COLORS` |
| Ledger.TableNameCategory | app.py:42-54 | every key of `CATEGORY_COLORS` is the name of one of the eleven categories |
| Ledger.TextCells | app.py:73-74 | the header row holds label `i` of `HEADERS` in column `i + 1` |
| Ledger.GetOrCreateWorkbook | app.py:56-67 | a missing file is created holding only the header row, and an existing file is returned untouched; the result is never missing |
| Ledger.GetOrCreateIdempotent | app.py:58-65 | opening twice is opening once; an existing ledger is neither altered nor given a second header |
| Ledger.ToCellRoundTrip | app.py:105-106 | any value a cell accepts, and which is not too long to keep, reads back from the cell unchanged |
| Ledger.ToCells | app.py:105-106 | writing the values succeeds exactly when each value can be written, with one cell per value in order; otherwise it reports the first column that cannot be written |
| Ledger.BuildValues | app.py:89-103 | the row has 13 values with the sender in column 12. Date and time are the record's when present and truthy, otherwise the clock's. Every other column holds the record's value verbatim when its key is present, and its default only when the key is absent: `Diğer`, null amount, `TRY`, null VAT, `""` |
| Ledger.MaxRow | app.py:104 | `max_row` is 1 on an empty sheet; on a non-empty sheet it is the number of rows, the last of which holds a cell |
| Ledger.Reloaded | app.py:59 | a cell loaded from the saved file is the cell written, except that a whole float below 10^16 in magnitude comes back as that `int` and an empty text comes back empty |
| Ledger.ReloadedIdempotent | app.py:59 | loading a reloaded cell again changes nothing, and a reload keeps a number's value |
| Ledger.ReloadedCells | app.py:236 | a loaded row has the written row's width, each cell reloaded |
| Ledger.WithRow | app.py:104-106 | the row written goes to `max_row + 1` and is the last row; the rows above it are kept; on an empty sheet row 1 stays empty |
| Ledger.AppendExpense | app.py:83-112 | The append succeeds exactly when the file loads and every value can be written. A failure leaves the ledger as `get_or_create_workbook` left it. A success writes row `max_row + 1`, which becomes the last row; every earlier row is kept, header included; the new row holds the 13 values in column order with the category's colour. On an existing sheet with no rows, the row is row 2 and row 1 stays empty |
| Ledger.AppendThenRead | app.py:104-110 | reading back the appended row from the sheet in memory gives the 13 values that were written, in column order |
| Ledger.FirstAppendIsRowTwo | app.py:104 | on a ledger that did not exist, the first expense becomes row 2 below the header |
| Ledger.ConsecutiveAppends | app.py:104-112 | two appends in a row return consecutive row numbers, and the second keeps the first one's row |
| Extraction.BeforeSemicolon | app.py:144 | `split(";")[0]` is the prefix of the header up to its first `;`, or the whole header |
| Extraction.MimeType | app.py:144 | the mime type is `image/jpeg` without a `Content-Type`; otherwise it is the header cut before its first `;` |
| Extraction.MimeTypeDropsParameters | app.py:144 | `base;params` gives the mime type `base` |
| Extraction.DropJsonTag | app.py:169-170 | one leading `json` is removed, and a text without it is kept |
| Extraction.CleanReply | app.py:165-171 | the text given to `json.loads` never starts or ends with whitespace |
| Extraction.StripKeepsNoFence | app.py:165-167 | stripping cannot create a code fence |
| Extraction.CleanUnfenced | app.py:165-171 | a reply without a fence is only stripped |
| Extraction.NoFenceBeforeClosing | app.py:168 | in a fenced reply, the first fence after the opening one is the closing one |
| Extraction.FencedSegment | app.py:167-168 | `split` on a fenced reply picks the tag and body between the fences |
| Extraction.DropTagOf | app.py:169-170 | removing the tag from `json<body>` gives back the body, and an untagged body is kept |
| Extraction.CleanThroughFence | app.py:167-171 | a reply holding a fence is cleaned to the stripped, untagged segment after its first fence |
| Extraction.CleanFenced | app.py:165-171 | a body wrapped in ```` ```json ```` or ```` ``` ```` fences, with whitespace padding on either side, cleans back to the stripped body |
| Extraction.AnalyzeImage | app.py:135-179 | A failed download or a failed model call gives no record. After both succeed, the result is exactly `json.loads` of the cleaned reply, `None` when it does not parse; so a record comes only from a successful download and model reply. The model is shown the downloaded bytes under the header's mime type |
| Summary.DataRows | app.py:235-236 | the rows read are all rows after the header, in order, each cell as it loads back from the saved file |
| Summary.MaxColumn | app.py:236-243 | the sheet's width is at least 1 and at least the width of every row, and it is the width of some row unless no row is wider than 1; it alone decides whether `r[4]` raises |
| Summary.Amount | app.py:244 | an empty cell, `""`, `False` or `0` counts as 0, and so does a text `float` refuses, so the summary never fails on an amount; a number counts with its value, `True` as 1, a text `float` accepts as what it parses to |
| Summary.AmountReloaded | app.py:244 | a save and load never change what a cell adds to the total |
| Summary.WholeAmountListedAsInt | app.py:246 | an amount written as `125.0` loads as the `int` 125, is listed as `125`, and adds 125 to the total |
| Summary.Recent | app.py:239 | `rows[-10:]` is the last `min(10, n)` rows in storage order |
| Summary.Reverse | app.py:242 | `reversed` puts element `i` at position `n - 1 - i` |
| Summary.Listed | app.py:239-242 | the listed rows are `min(10, n)` in number, newest first |
| Summary.SumAmountsAppend | app.py:241-245 | the total of two runs of rows is the sum of their totals |
| Summary.SumAmountsReverse | app.py:242-245 | visiting the rows newest first gives the same total |
| Summary.RecentTotal | app.py:241-245 | the loop's total is the sum of the amounts of exactly the last `min(10, n)` rows; empty and unparsable amounts count as 0 |
| Summary.ReportLines | app.py:240-248 | the lines are the title, the rows newest first (line `i` shows the `i`-th most recent row), and the total of exactly those rows |
| Summary.GenerateSummary | app.py:233-250 | The summary never raises, and it only creates a missing ledger. An unloadable file gives the failure text with its reason; no data rows give `Henuz kayitli masraf yok.`; rows narrower than five cells give the `IndexError` text; otherwise the report lines are joined by newlines |
| Summary.AppendKeepsWellformed | app.py:104-110 | appending keeps the full-width header as row 1 |
| Summary.SummaryOfWellformed | app.py:243 | on a ledger the program wrote, the summary is the listing or the no-records text, never a failure |
| Webhook.SummaryCommandOfPadded | app.py:185-194 | a body asks for the summary exactly when its stripped text, lower-cased, is a keyword |
| Webhook.SummaryCommandUpperCase | app.py:194 | `" OZET\n"` asks for the summary |
| Webhook.SummaryCommandMixedCase | app.py:194 | `"RaPoR"` asks for the summary |
| Webhook.SummaryCommandLowerCase | app.py:194 | `"summary"` asks for the summary |
| Webhook.SummaryCommandNeedsAscii | app.py:194 | `"özet"` gets the help text |
| Webhook.MediaItems | app.py:205-207 | the loop visits `num_media` attachments, and none when it is zero or negative; attachment `i` has the URL of field `MediaUrl{i}`, `None` when the field is absent, and the type of `MediaContentType{i}`, `""` when absent; it is numbered `i` |
| Webhook.ProcessItem | app.py:206-227 | A rejected attachment gives the unsupported line and touches nothing, and only a rejected one gives that line. An accepted one that is not analysed, or whose reply is falsy, gives the unreadable line and touches nothing. A truthy reply other than an object raises after the ledger is opened. A non-empty object is appended: its line is saved under the returned row, or the append's exception escapes. A saved line's record is the object the reply parsed to; the ledger keeps its earlier rows and gains the new last row, which is the row the line names. The append uses the clock reading of that attachment |
| Webhook.RecordIsSaved | app.py:214-225 | an image the model reads as a non-empty object is saved at the row `append_expense` returns |
| Webhook.ItemStepIsLawful | app.py:206-227 | the handler's loop body keeps the per-attachment guarantee (`Webhook.StepKeeps`) on every ledger and attachment; the loop lemmas below hold for any body that does |
| Webhook.ProcessAll | app.py:204-227 | without an exception there is one line per attachment; an exception ends the loop early |
| Webhook.LinesFollowItems | app.py:204-227 | line `i` is the unsupported line exactly when attachment `i` has no URL or is not `image/*` |
| Webhook.RejectedItemsTouchNothing | app.py:210-212 | rejected attachments each give the unsupported line and never touch the ledger |
| Webhook.RowsGrowBySaved | app.py:214-217 | the ledger grows by exactly one row per saved line, and the earlier rows, header included, are kept |
| Webhook.SavedRowsAreFresh | app.py:216-224 | the rows named in one reply are strictly increasing, below the header, and all exist afterwards |
| Webhook.CrashIsFinal | app.py:205-217 | after an exception no later attachment is processed |
| Webhook.ProcessAllStep | app.py:205-227 | after a prefix without an exception, the next attachment's outcome extends the lines or ends the loop |
| Webhook.ProcessMedia | app.py:204-227 | the imperative loop computes the ledger, lines and failure flag of `ProcessAll` |
| Webhook.LineText | app.py:211-227 | no result line is empty |
| Webhook.LineTexts | app.py:204-227 | the reply lines are the line texts, in the order of the attachments |
| Webhook.ReplyOfLines | app.py:229 | the reply is `Islem tamamlandi.` exactly when there are no lines; otherwise it is the lines joined by a blank line |
| Webhook.HandleWebhook | app.py:182-231 | A bad `NumMedia` fails the request before anything happens. Without media, a keyword gets the summary and its ledger, and any other text gets the help text with the ledger untouched. With media, the ledger is the loop's, and the reply is its joined lines, or a server error exactly when the loop raised |
| Webhook.NegativeCountIsDone | app.py:204-229 | a negative media count visits nothing and answers `Islem tamamlandi.` |
| Webhook.MixedAttachmentsOnFreshLedger | app.py:204-229 | a non-image followed by a readable photo, with no ledger yet, creates the ledger and saves the photo as row 2; the reply is the unsupported line, a blank line, and the confirmation for row 2 |
| Webhook.MixedAttachmentsLoop | app.py:205-227 | in that case, the loop yields the unsupported line and then the saved row |
| Webhook.ReplyOfUnsupportedThenSaved | app.py:218-229 | the unsupported line and a confirmation are joined by a blank line |
| Webhook.OneItemLoop | app.py:205-227 | a loop over one attachment that does not raise yields exactly that attachment's line and ledger |
| Webhook.TwoItemsLoop | app.py:205-227 | a loop over two attachments, neither raising, yields their lines in arrival order, the second processed on the ledger the first left |
| Webhook.ReplyOfTwo | app.py:229 | two lines are joined by a blank line |
| Webhook.OneImageScenario | app.py:204-229 | One photo read as amount 125.5 in `Market/Gıda` adds exactly one row after the existing ones. The row holds 125.5 as a number and the category as text, in colour `C8E6C9`. The reply is that row's confirmation, opening with the category and the amount |
| Webhook.AppendMarketRecord | app.py:83-112 | such a record lands in the next row with its amount, its category and the category's colour |
| Webhook.OneImageLoop | app.py:205-225 | a single readable photo gives a single saved line |
| Webhook.ReplyOfSaved | app.py:218-229 | a single confirmation is the whole reply |
| Webhook.SavedTextOpening | app.py:218-220 | the confirmation opens with the category and the amount as the model returned them |
| Webhook.SummaryKeywordScenario | app.py:193-201 | `summary` with no media gets the summary, never the help text |
| Webhook.ListingOpening | app.py:240-248 | the joined listing starts with its title `Son 10 Masraf:` and its newline |
| Webhook.SummaryIsNotHelp | app.py:233-250 | no summary text, including its failure texts, equals the help text |

## Left out

- Flask, TwiML and the `/health` endpoint (`app.py:181-191`, `app.py:202`, `app.py:230-231`, `app.py:252-259`) are transport. The model's request is the form as a map, and its response is the reply text or a server error.
- The HTTP download, base64 encoding and the Anthropic call (`app.py:141-164`) are network and foreign calls. They are the `download` and `ask` parameters; a failure of either is `None`, as the `except` clauses make it.
- `json.loads` (`app.py:171`) is the `parse` parameter. Nested arrays and objects are known only by their text and whether they are empty.
- The system prompt (`app.py:114-133`) is text sent to the model; it has no logic.
- Fonts, alignment, column widths, freeze panes and the number format (`app.py:70-81`, `app.py:108-109`) are presentation. Only the fill colours are modelled.
- `wb.save` and `openpyxl.load_workbook` are modelled as returning or taking a `Store`. A saved sheet loads back row for row, with the cell changes of `Ledger.Reloaded`. I/O errors while saving are not modelled.
- Logging and environment loading (`app.py:5-34`) have no effect on the results.
- Summary.RecentTotal: the total is an exact sum of reals, not a float sum with rounding. `float()` on a text cell, the rendering of floats and the `:,.2f` format are parameters.
- Summary.GenerateSummary: only the exceptions the model can name are modelled as failure texts: a load error and the `IndexError` of a narrow row. Others, such as a corrupt cell type, are not.
- PyText.Lower: only `A`–`Z` and the Kelvin sign are lowered, for the reason given above. Lowering of other non-ASCII letters is not modelled.
- PyText.Join: its own contract states only the first part and the length. How the parts are interleaved is used through its definition, in `Webhook.ReplyOfTwo`, `Webhook.ReplyOfLines` and `PyText.JoinEmpty`.
- Ledger.Reloaded: a float that is not whole is assumed to load back as written. `"%.16g"` keeps 16 significant digits, so a float needing 17 comes back rounded; floats are exact reals here.
- Ledger.ToCell: openpyxl's acceptance of Python types is modelled only for the JSON types. A float is an exact real, so the non-finite values `json.loads` accepts (`NaN`, `Infinity`) are not modelled. Text longer than 32767 characters is cut, as openpyxl does, so `Ledger.AppendThenRead` assumes texts within that length.
- Extraction.AnalyzeImage: the 30-second timeout and the HTTP status check are part of the `download` parameter. Which exception `analyze_image` catches makes no difference, since every one gives `None`.
- Webhook.HandleWebhook: `int()` of `NumMedia` is the `parseInt` parameter, and what it accepts is not modelled. Concurrent requests on the same file are not modelled; each request is a function from one ledger state to the next.

=== FILE: extraction.dfy ===
/** `analyze_image`: download the photographed document, ask the vision model
    for a JSON record, clean the reply and parse it. The download, the model
    call and `json.loads` are parameters; what is modelled is the glue between
    them: the mime type taken from the download's `Content-Type`, and the
    cleanup of a reply wrapped in a ``` code fence. */
module Extraction {
  import opened Wrappers
  import opened PyText
  import opened Values

  newtype byte = x | 0 <= x < 256

  /** `requests.get(url, auth=..., timeout=30)` followed by `raise_for_status()`:
      a network error or an error status, or the response's `Content-Type`
      header (if it has one) and body. */
  datatype Download = DownloadFailed | Downloaded(contentType: Option<string>, content: seq<byte>)

  /** The outside world `analyze_image` talks to.
      - `download(url, accountSid)`: the authenticated HTTP GET of the media URL;
      - `ask(image, mimeType)`: the vision model's reply text, `None` when the
        API call fails or the reply has no text block;
      - `parse(text)`: `json.loads`, `None` on a decode error. */
  datatype Services = Services(
    download: (string, string) -> Download,
    ask: (seq<byte>, string) -> Option<string>,
    parse: string -> Option<Parsed>)

  const DefaultMime: string := "image/jpeg"
  const Fence: string := "```"
  const JsonTag: string := "json"

  // ---------------------------------------------------------------------------
  // Mime type
  // ---------------------------------------------------------------------------

  /** `header.split(";")[0]`: the header up to its first `;`. */
  function BeforeSemicolon(h: string): (r: string)
    ensures StartsWith(h, r)
    ensures ';' !in r
    ensures |r| == |h| || h[|r|] == ';'
  {
    match FindFrom(h, ";", 0)
    case None =>
      assert ';' !in h by {
        forall k | 0 <= k < |h| ensures h[k] != ';' {
          assert !OccursAt(h, ";", k);
          assert h[k..k + 1] == [h[k]];
        }
      }
      h
    case Some(i) =>
      assert h[i..i + 1] == ";";
      assert ';' !in h[..i] by {
        forall k | 0 <= k < i ensures h[..i][k] != ';' {
          assert !OccursAt(h, ";", k);
          assert h[k..k + 1] == [h[k]];
        }
      }
      h[..i]
  }

  /** The mime type sent to the model: the `Content-Type` header cut before
      its first parameter, or `image/jpeg` when the header is missing. */
  function MimeType(contentType: Option<string>): (r: string)
    ensures contentType.None? ==> r == DefaultMime
    ensures contentType.Some? ==> StartsWith(contentType.value, r) && ';' !in r
    ensures contentType.Some? ==> |r| == |contentType.value| || contentType.value[|r|] == ';'
  {
    match contentType
    case None => DefaultMime
    case Some(h) => BeforeSemicolon(h)
  }

  /** A header's parameters never reach the model: the mime type of
      `base + ";" + params` is that of `base`, whenever `base` has no `;`. */
  lemma MimeTypeDropsParameters(base: string, params: string)
    requires ';' !in base
    ensures MimeType(Some(base + ";" + params)) == base
  {
    var h := base + ";" + params;
    assert h[..|base|] == base;
    assert h[|base|] == ';';
  }

  // ---------------------------------------------------------------------------
  // Reply cleanup
  // ---------------------------------------------------------------------------

  /** Drops one leading `json` language tag. */
  function DropJsonTag(s: string): (r: string)
    ensures StartsWith(s, JsonTag) ==> s == JsonTag + r
    ensures !StartsWith(s, JsonTag) ==> r == s
  {
    if StartsWith(s, JsonTag) then s[|JsonTag|..] else s
  }

  /** The text handed to `json.loads`: the stripped reply; if it holds a
      fence, only the text between the first and the second fence, without a
      leading `json` tag; stripped again. */
  function CleanReply(reply: string): (r: string)
    ensures Trimmed(r)
  {
    var raw := Strip(reply);
    var inner := if Contains(raw, Fence) then DropJsonTag(SplitSecond(raw, Fence)) else raw;
    Strip(inner)
  }

  /** A fence in the stripped reply was already a fence in the reply. */
  lemma StripKeepsNoFence(reply: string)
    requires !Contains(reply, Fence)
    ensures !Contains(Strip(reply), Fence)
  {
    var s := Strip(reply);
    if Contains(s, Fence) {
      var k := FindFrom(s, Fence, 0).value;
      var n := Lead(reply);
      assert s == reply[n..][..|s|];
      OccursInPrefix(reply[n..], |s|, Fence, k);
      OccursInSuffix(reply, n, Fence, k);
    }
  }

  /** A reply without a fence is only stripped. */
  lemma CleanUnfenced(reply: string)
    requires !Contains(reply, Fence)
    ensures CleanReply(reply) == Strip(reply)
  {
    StripKeepsNoFence(reply);
    StripIdempotent(reply);
  }

  /** A language tag the cleanup may meet: none, or `json`. */
  predicate FenceTag(tag: string) {
    tag == "" || tag == JsonTag
  }

  /** In ```` ```<tag><body>``` ````, the first fence after the opening one is
      the closing one. */
  lemma NoFenceBeforeClosing(tag: string, body: string)
    requires FenceTag(tag)
    requires !Contains(body, Fence)
    requires body == [] || body[|body| - 1] != '`'
    ensures var core := Fence + tag + body + Fence;
            FindFrom(core, Fence, 3) == Some(3 + |tag| + |body|)
  {
    var core := Fence + tag + body + Fence;
    var t := 3 + |tag|;
    var m := t + |body|;
    assert core[m..m + 3] == Fence;
    assert forall i | 0 <= i < |tag| :: core[3 + i] == tag[i];
    assert core[t..m] == body;
    forall k | 3 <= k < m
      ensures !OccursAt(core, Fence, k)
    {
      if k < t {
        NoFenceThrough(core, k, k);
      } else if k + 3 <= m {
        NoFenceInside(core, t, m, body, k);
      } else {
        NoFenceThrough(core, k, m - 1);
      }
    }
    FindFromIs(core, Fence, 3, m);
  }

  /** No fence starts at `k` when one of the three characters from `k` on is
      not a backtick. */
  lemma NoFenceThrough(s: string, k: nat, j: nat)
    requires k <= j < k + 3 && j < |s| && s[j] != '`'
    ensures !OccursAt(s, Fence, k)
  {
    if k + 3 <= |s| {
      assert s[k..k + 3][j - k] == s[j];
    }
  }

  /** A fence inside a slice would be a fence of the slice. */
  lemma NoFenceInside(s: string, lo: nat, hi: nat, body: string, k: nat)
    requires lo <= k && k + 3 <= hi <= |s| && s[lo..hi] == body
    requires !Contains(body, Fence)
    ensures !OccursAt(s, Fence, k)
  {
    var b := k - lo;
    forall j | k <= j < k + 3 ensures s[j] == body[j - lo] {
      assert body[j - lo] == s[lo..hi][j - lo];
    }
    assert s[k..k + 3] == body[b..b + 3];
    assert !OccursAt(body, Fence, b);
  }

  /** The segment `split` picks out of ```` ```<tag><body>``` ```` is `<tag><body>`. */
  lemma FencedSegment(tag: string, body: string)
    requires FenceTag(tag)
    requires !Contains(body, Fence)
    requires body == [] || body[|body| - 1] != '`'
    ensures var core := Fence + tag + body + Fence;
            Contains(core, Fence) && SplitSecond(core, Fence) == tag + body
  {
    var core := Fence + tag + body + Fence;
    assert core[..3] == Fence;
    FindFromIs(core, Fence, 0, 0);
    NoFenceBeforeClosing(tag, body);
    assert core[3..3 + |tag| + |body|] == tag + body;
  }

  /** Cleaning is the inverse of wrapping a JSON body in a code fence: for a
      body with no fence in it that does not end in a backtick, a reply
      ```` ```json<body>``` ```` or ```` ```<body>``` ```` padded with
      whitespace on either side cleans to the stripped body. Without a tag,
      the body must not itself start with `json`. */
  lemma CleanFenced(p: string, tag: string, body: string, q: string)
    requires AllSpace(p) && AllSpace(q)
    requires FenceTag(tag) && (tag == "" ==> !StartsWith(body, JsonTag))
    requires !Contains(body, Fence)
    requires body == [] || body[|body| - 1] != '`'
    ensures CleanReply(p + Fence + tag + body + Fence + q) == Strip(body)
  {
    var core := Fence + tag + body + Fence;
    var reply := p + Fence + tag + body + Fence + q;
    assert reply == p + core + q;
    StripPadded(p, core, q);
    FencedSegment(tag, body);
    DropTagOf(tag, body);
    CleanThroughFence(reply, core);
  }

  lemma DropTagOf(tag: string, body: string)
    requires FenceTag(tag) && (tag == "" ==> !StartsWith(body, JsonTag))
    ensures DropJsonTag(tag + body) == body
  {
    if tag == JsonTag {
      assert (tag + body)[..4] == JsonTag;
      assert (tag + body)[4..] == body;
    }
  }

  /** Once the stripped reply is known and holds a fence, the cleaned reply is
      the stripped, untagged segment after the first fence. */
  lemma CleanThroughFence(reply: string, raw: string)
    requires Strip(reply) == raw && Contains(raw, Fence)
    ensures CleanReply(reply) == Strip(DropJsonTag(SplitSecond(raw, Fence)))
  {
  }

  // ---------------------------------------------------------------------------
  // analyze_image
  // ---------------------------------------------------------------------------

  /** `analyze_image(url, auth)`: the parsed reply, or `None` when the download,
      the model call or the JSON parse fails. The model is shown the downloaded
      bytes under the header's mime type, and `json.loads` sees the cleaned
      reply. */
  function AnalyzeImage(svc: Services, url: string, accountSid: string): (r: Option<Parsed>)
    // a failed download gives no result
    ensures svc.download(url, accountSid).DownloadFailed? ==> r.None?
    // after a download, the model is shown its bytes under the header's mime type;
    // a failed model call gives no result, and otherwise the result is exactly
    // what the parser makes of the cleaned reply
    ensures var d := svc.download(url, accountSid);
            d.Downloaded? ==>
              var reply := svc.ask(d.content, MimeType(d.contentType));
              && (reply.None? ==> r.None?)
              && (reply.Some? ==> r == svc.parse(CleanReply(reply.value)))
    // so a result means both succeeded
    ensures var d := svc.download(url, accountSid);
            r.Some? ==> d.Downloaded? && svc.ask(d.content, MimeType(d.contentType)).Some?
  {
    match svc.download(url, accountSid)
    case DownloadFailed => None
    case Downloaded(contentType, content) =>
      match svc.ask(content, MimeType(contentType))
      case None => None
      case Some(reply) => svc.parse(CleanReply(reply))
  }
}

=== FILE: ledger.dfy ===
/** The expense ledger: a spreadsheet whose first row is a fixed header of 13
    labels and whose later rows are one extracted expense each, filled with a
    colour chosen by category. The spreadsheet file is modelled as a `Store`
    value; writing it back is returning a new `Store`. */
module Ledger {
  import opened Wrappers
  import opened Values

  // ---------------------------------------------------------------------------
  // Header and category colours
  // ---------------------------------------------------------------------------

  /** The header labels, in column order. */
  const Headers: seq<string> := [
    "Tarih", "Saat", "Kategori", "Açıklama", "Tutar (TL)", "Para Birimi",
    "Belge Türü", "Satıcı/Kurum", "Vergi No", "KDV Tutarı",
    "Ödeme Yöntemi", "Kaynak (Numara)", "Notlar"
  ]

  /** Number of columns of every row the program writes. */
  const Width: nat := 13

  /** Fill colour of the header cells. */
  const HeaderFill: string := "1565C0"

  /** Fill colour of a row whose category is not in the table. */
  const FallbackColour: string := "F5F5F5"

  /** Fill colour per category name. */
  const CategoryColours: map<string, string> := map[
    "Market/Gıda"   := "C8E6C9",
    "Fatura"        := "BBDEFB",
    "Ulaşım"        := "FFE0B2",
    "Sağlık"        := "F8BBD9",
    "Eğitim"        := "E1BEE7",
    "Eğlence"       := "FFF9C4",
    "Giyim"         := "B2EBF2",
    "Teknoloji"     := "DCEDC8",
    "Restoran/Kafe" := "FFCCBC",
    "Banka İşlemi"  := "CFD8DC",
    "Diğer"         := "F5F5F5"
  ]

  /** The eleven categories the ledger knows, as a closed set. */
  datatype Category =
    | MarketGida | Fatura | Ulasim | Saglik | Egitim | Eglence
    | Giyim | Teknoloji | RestoranKafe | BankaIslemi | Diger

  function CategoryName(c: Category): string {
    match c
    case MarketGida => "Market/Gıda"
    case Fatura => "Fatura"
    case Ulasim => "Ulaşım"
    case Saglik => "Sağlık"
    case Egitim => "Eğitim"
    case Eglence => "Eğlence"
    case Giyim => "Giyim"
    case Teknoloji => "Teknoloji"
    case RestoranKafe => "Restoran/Kafe"
    case BankaIslemi => "Banka İşlemi"
    case Diger => "Diğer"
  }

  /** The colour the table gives a category. */
  function Palette(c: Category): string {
    CategoryColours[CategoryName(c)]
  }

  /** `CATEGORY_COLORS.get(category, "F5F5F5")`. A list or object as category
      cannot be a dictionary key: the lookup raises, modelled as `None`. */
  function ColourOf(category: Value): Option<string> {
    match category
    case Nested(_, _) => None
    case Str(s) => Some(if s in CategoryColours then CategoryColours[s] else FallbackColour)
    case _ => Some(FallbackColour)
  }

  /** The colour table agrees with the closed category set: each of the eleven
      names gets its own colour, every other hashable value (an unknown name,
      null, a number, a boolean) gets the fallback colour, and only a list or
      object fails. */
  lemma ColourLookup(v: Value)
    ensures forall c :: v == Str(CategoryName(c)) ==> ColourOf(v) == Some(Palette(c))
    ensures !v.Nested? && (forall c :: v != Str(CategoryName(c))) ==> ColourOf(v) == Some(FallbackColour)
    ensures v.Nested? <==> ColourOf(v).None?
  {
    forall c | v == Str(CategoryName(c)) ensures ColourOf(v) == Some(Palette(c)) {
      NamedColour(c);
    }
    if v.Str? && v.s in CategoryColours {
      var c := TableNameCategory(v.s);
      assert v == Str(CategoryName(c));
    }
  }

  lemma NamedColour(c: Category)
    ensures ColourOf(Str(CategoryName(c))) == Some(Palette(c))
  {
  }

  /** Every key of the colour table names a category. */
  lemma TableNameCategory(s: string) returns (c: Category)
    requires s in CategoryColours
    ensures CategoryName(c) == s
  {
    if s == "Market/Gıda" { c := MarketGida; }
    else if s == "Fatura" { c := Fatura; }
    else if s == "Ulaşım" { c := Ulasim; }
    else if s == "Sağlık" { c := Saglik; }
    else if s == "Eğitim" { c := Egitim; }
    else if s == "Eğlence" { c := Eglence; }
    else if s == "Giyim" { c := Giyim; }
    else if s == "Teknoloji" { c := Teknoloji; }
    else if s == "Restoran/Kafe" { c := RestoranKafe; }
    else if s == "Banka İşlemi" { c := BankaIslemi; }
    else { c := Diger; }
  }

  // ---------------------------------------------------------------------------
  // Cells, rows and the store
  // ---------------------------------------------------------------------------

  /** A spreadsheet cell as openpyxl holds it in memory, which is also how the
      store keeps it: the value written, with its Python type. Reading the
      saved file back can change it; see `Reloaded`. */
  datatype Cell = Empty | BoolCell(b: bool) | IntCell(n: int) | FloatCell(x: real) | TextCell(s: string)

  /** 10^16: `"%.16g"` spells every whole number below it in magnitude
      without a decimal point or an exponent. */
  const SixteenDigits: int := 10000000000000000

  /** A float that `"%.16g"` writes as a plain integer. */
  predicate WholeBelowSixteenDigits(x: real) {
    x.Floor as real == x && -SixteenDigits < x.Floor < SixteenDigits
  }

  /** A cell as `load_workbook` reads back what `wb.save` wrote. A number is
      saved as its `"%.16g"` text and loaded as an `int` when that text has no
      `.`, `e` or `E`, so a whole float of fewer than 17 digits comes back as
      an `int`. An empty text is saved as a cell without a value and comes back
      empty. */
  function Reloaded(c: Cell): (r: Cell)
    ensures c.FloatCell? && WholeBelowSixteenDigits(c.x) ==> r == IntCell(c.x.Floor)
    ensures c == TextCell("") ==> r == Empty
    // everything else comes back as written
    ensures !(c.FloatCell? && WholeBelowSixteenDigits(c.x)) && c != TextCell("") ==> r == c
  {
    match c
    case FloatCell(x) => if WholeBelowSixteenDigits(x) then IntCell(x.Floor) else c
    case TextCell(s) => if s == "" then Empty else c
    case _ => c
  }

  /** Loading a saved cell twice is loading it once: the file spells the
      reloaded cell as it spelt the cell. */
  lemma ReloadedIdempotent(c: Cell)
    ensures Reloaded(Reloaded(c)) == Reloaded(c)
    // a reload keeps the kind of a value and its number
    ensures c.FloatCell? ==> (Reloaded(c).IntCell? && Reloaded(c).n as real == c.x) || Reloaded(c) == c
    ensures Reloaded(c).IntCell? ==> c.IntCell? || c.FloatCell?
  {
  }

  /** A row's cells as loaded from the saved file. */
  function ReloadedCells(cells: seq<Cell>): (r: seq<Cell>)
    ensures |r| == |cells|
    ensures forall j | 0 <= j < |cells| :: r[j] == Reloaded(cells[j])
  {
    seq(|cells|, j requires 0 <= j < |cells| => Reloaded(cells[j]))
  }

  /** A row: its cells from column 1 on, and its fill colour if it has one. */
  datatype Row = Row(cells: seq<Cell>, fill: Option<string>)

  /** The last row, if there is one, holds a cell. */
  predicate LastRowHolds(rows: seq<Row>) {
    |rows| == 0 || |rows[|rows| - 1].cells| > 0
  }

  /** The rows of a sheet as openpyxl sees them: a sheet reaches down to the
      last row that holds a cell, so no row after it is counted. A row above
      it may hold none. */
  type Sheet = rows: seq<Row> | LastRowHolds(rows)

  /** The spreadsheet file: not there yet, there but not loadable, or loaded.
      Row `k` (1-based, as in the spreadsheet) is `rows[k - 1]`. */
  datatype Store = Missing | Unreadable(reason: string) | Workbook(rows: Sheet)

  /** Text cells holding the given labels, in order. */
  function TextCells(labels: seq<string>): (r: seq<Cell>)
    ensures |r| == |labels|
    ensures forall i | 0 <= i < |labels| :: r[i] == TextCell(labels[i])
  {
    seq(|labels|, i requires 0 <= i < |labels| => TextCell(labels[i]))
  }

  /** Row 1: the header labels in the header colour. */
  const HeaderRow: Row := Row(TextCells(Headers), Some(HeaderFill))

  /** The rows of a loaded store; no rows otherwise. */
  function RowsOf(s: Store): Sheet {
    if s.Workbook? then s.rows else []
  }

  /** `get_or_create_workbook`: a missing file is created holding only the
      header row; an existing file is opened as it is. A file that cannot be
      loaded stays as it is (the load raises). */
  function GetOrCreateWorkbook(s: Store): (r: Store)
    ensures !r.Missing?
    ensures s.Missing? ==> r == Workbook([HeaderRow])
    ensures !s.Missing? ==> r == s
  {
    if s.Missing? then Workbook([HeaderRow]) else s
  }

  /** Creating the ledger is idempotent: the header is written only when the
      file does not exist, and an existing file is never touched. */
  lemma GetOrCreateIdempotent(s: Store)
    ensures GetOrCreateWorkbook(GetOrCreateWorkbook(s)) == GetOrCreateWorkbook(s)
    ensures s.Workbook? ==> GetOrCreateWorkbook(s) == s
    ensures |RowsOf(GetOrCreateWorkbook(s))| == if s.Missing? then 1 else |RowsOf(s)|
  {
  }

  /** openpyxl's `max_row`: the last row that holds a cell, which on a `Sheet`
      is the number of rows, but 1 for an empty sheet. */
  function MaxRow(rows: Sheet): (r: nat)
    ensures |rows| == 0 ==> r == 1
    ensures |rows| > 0 ==> r == |rows| && |rows[r - 1].cells| > 0
  {
    if |rows| == 0 then 1 else |rows|
  }

  // ---------------------------------------------------------------------------
  // Writing a value into a cell (openpyxl's rules)
  // ---------------------------------------------------------------------------

  /** The longest text openpyxl keeps in a cell; longer text is cut. */
  const MaxCellText: nat := 32767

  /** The control characters openpyxl refuses in cell text. */
  predicate IllegalChar(c: char) {
    c <= '\U{8}' || c == '\U{B}' || c == '\U{C}' || ('\U{E}' <= c <= '\U{1F}')
  }

  /** Text as openpyxl keeps it: at most `MaxCellText` characters. */
  function CutText(s: string): string {
    if |s| <= MaxCellText then s else s[..MaxCellText]
  }

  predicate HasIllegalChar(t: string) {
    exists i | 0 <= i < |t| :: IllegalChar(t[i])
  }

  /** The cell a value becomes, or `None` when openpyxl refuses it: a list or
      object cannot be converted, and text (after cutting it to
      `MaxCellText` characters) must not hold an illegal control character. */
  function ToCell(v: Value): Option<Cell> {
    match v
    case Null => Some(Empty)
    case Bool(b) => Some(BoolCell(b))
    case Int(n) => Some(IntCell(n))
    case Float(x) => Some(FloatCell(x))
    case Str(s) => if HasIllegalChar(CutText(s)) then None else Some(TextCell(CutText(s)))
    case Nested(_, _) => None
  }

  /** The value a cell reads back as. */
  function CellValue(c: Cell): Value {
    match c
    case Empty => Null
    case BoolCell(b) => Bool(b)
    case IntCell(n) => Int(n)
    case FloatCell(x) => Float(x)
    case TextCell(s) => Str(s)
  }

  /** Every value that a cell accepts without cutting it reads back unchanged. */
  lemma ToCellRoundTrip(v: Value)
    requires ToCell(v).Some?
    requires v.Str? ==> |v.s| <= MaxCellText
    ensures CellValue(ToCell(v).value) == v
  {
  }

  /** Writes the values into cells from column 1 on; on failure, the 1-based
      column of the first value that cannot be written. */
  function ToCells(values: seq<Value>): (r: Result<seq<Cell>, nat>)
    ensures r.Success? <==> forall i | 0 <= i < |values| :: ToCell(values[i]).Some?
    ensures r.Success? ==> |r.value| == |values|
    ensures r.Success? ==> forall i | 0 <= i < |values| :: r.value[i] == ToCell(values[i]).value
    ensures r.Failure? ==> 1 <= r.error <= |values| && ToCell(values[r.error - 1]).None?
    ensures r.Failure? ==> forall i | 0 <= i < r.error - 1 :: ToCell(values[i]).Some?
  {
    if |values| == 0 then Success([])
    else
      match ToCell(values[0])
      case None => Failure(1)
      case Some(c) =>
        match ToCells(values[1..])
        case Success(cs) => Success([c] + cs)
        case Failure(k) => Failure(k + 1)
  }

  // ---------------------------------------------------------------------------
  // append_expense
  // ---------------------------------------------------------------------------

  /** The clock reading `datetime.now()` gives, already formatted as
      `%Y-%m-%d` and `%H:%M`. */
  datatype Now = Now(date: string, time: string)

  /** The record key each column is filled from, in column order. The sender's
      column is not filled from the record; its entry is never consulted. */
  const ColumnKeys: seq<string> := [
    "tarih", "saat", "kategori", "aciklama", "tutar", "para_birimi",
    "belge_turu", "satici", "vergi_no", "kdv_tutari", "odeme_yontemi", "", "notlar"
  ]

  /** Column (0-based) holding the sender's address. */
  const SenderColumn: nat := 11

  /** The value a column gets when its key is absent from the record (columns
      2 and on, except the sender's). */
  function AbsentDefault(column: nat): Value {
    if column == 2 then Str("Diğer")
    else if column == 4 || column == 9 then Null
    else if column == 5 then Str("TRY")
    else Str("")
  }

  /** The 13 values `append_expense` writes for a record, in column order. */
  function BuildValues(data: Record, sender: string, now: Now): (r: seq<Value>)
    ensures |r| == Width == |Headers| == |ColumnKeys|
    ensures r[SenderColumn] == Str(sender)
    // date and time: the record's value when it is present and truthy, else now
    ensures ColumnKeys[0] in data && Truthy(data[ColumnKeys[0]]) ==> r[0] == data[ColumnKeys[0]]
    ensures !(ColumnKeys[0] in data && Truthy(data[ColumnKeys[0]])) ==> r[0] == Str(now.date)
    ensures ColumnKeys[1] in data && Truthy(data[ColumnKeys[1]]) ==> r[1] == data[ColumnKeys[1]]
    ensures !(ColumnKeys[1] in data && Truthy(data[ColumnKeys[1]])) ==> r[1] == Str(now.time)
    // every other column: the record's value verbatim when the key is present
    ensures forall i | 2 <= i < Width && i != SenderColumn && ColumnKeys[i] in data :: r[i] == data[ColumnKeys[i]]
    // ... and the column's default only when the key is absent
    ensures forall i | 2 <= i < Width && i != SenderColumn && ColumnKeys[i] !in data :: r[i] == AbsentDefault(i)
  {
    seq(Width, i requires 0 <= i < Width => ColumnValue(data, sender, now, i))
  }

  /** The value of column `i` (0-based): the record's date and time when
      truthy, else the clock's; the sender; otherwise `data.get(key, default)`. */
  function ColumnValue(data: Record, sender: string, now: Now, i: nat): Value
    requires i < Width
  {
    if i == 0 then (var date := Get(data, "tarih", Null); if Truthy(date) then date else Str(now.date))
    else if i == 1 then (var time := Get(data, "saat", Null); if Truthy(time) then time else Str(now.time))
    else if i == SenderColumn then Str(sender)
    else Get(data, ColumnKeys[i], AbsentDefault(i))
  }

  datatype AppendError = StoreUnreadable(reason: string) | UnhashableCategory | CellRejected(column: nat)

  /** The store after `append_expense`, and the row number it returned or the
      error it raised. */
  datatype Appended = Appended(store: Store, row: Result<nat, AppendError>)

  /** Every value of the row can be written into a cell. */
  predicate Writable(values: seq<Value>) {
    forall i | 0 <= i < |values| :: ToCell(values[i]).Some?
  }

  /** The row written for `values`: one cell per value, in column order, filled
      with the colour of the category in column 3. */
  predicate NewRowHolds(row: Row, values: seq<Value>)
    requires |values| == Width
  {
    && ColourOf(values[2]).Some?
    && row.fill == ColourOf(values[2])
    && |row.cells| == Width
    && forall i | 0 <= i < Width :: ToCell(values[i]).Some? && row.cells[i] == ToCell(values[i]).value
  }

  /** `append_expense(data, sender)`: opens or creates the ledger, colours the
      row by category, writes the 13 values at row `max_row + 1`, saves and
      returns that row number. */
  function AppendExpense(store: Store, data: Record, sender: string, now: Now): (r: Appended)
    ensures !r.store.Missing?
    // it succeeds exactly when the file loads and every value can be written
    ensures r.row.Success? <==> !store.Unreadable? && Writable(BuildValues(data, sender, now))
    // a failure saves nothing, though a missing file has been created by then
    ensures r.row.Failure? ==> r.store == GetOrCreateWorkbook(store)
    ensures r.row.Success? ==> r.store.Workbook?
    // the new row is numbered max_row + 1 and is the last row
    ensures r.row.Success? ==> r.row.value == MaxRow(RowsOf(GetOrCreateWorkbook(store))) + 1
    ensures r.row.Success? ==> |RowsOf(r.store)| == r.row.value
    // the rows before it, header included, are unchanged
    ensures r.row.Success? ==>
      RowsOf(r.store)[..|RowsOf(GetOrCreateWorkbook(store))|] == RowsOf(GetOrCreateWorkbook(store))
    // the new row holds the 13 values in column order, filled with the category's colour
    ensures r.row.Success? ==> NewRowHolds(RowsOf(r.store)[r.row.value - 1], BuildValues(data, sender, now))
    // on an existing sheet with no rows, `max_row` is 1: the row goes to row 2 and row 1 stays empty
    ensures r.row.Success? && store.Workbook? && |store.rows| == 0 ==>
      r.row.value == 2 && RowsOf(r.store)[0] == Row([], None)
  {
    var book := GetOrCreateWorkbook(store);
    if book.Unreadable? then Appended(book, Failure(StoreUnreadable(book.reason)))
    else
      var rows := RowsOf(book);
      var values := BuildValues(data, sender, now);
      match ColourOf(values[2])
      case None =>
        assert !Writable(values) by { assert ToCell(values[2]).None?; }
        Appended(book, Failure(UnhashableCategory))
      case Some(colour) =>
        match ToCells(values)
        case Failure(column) =>
          assert !Writable(values) by { assert ToCell(values[column - 1]).None?; }
          Appended(book, Failure(CellRejected(column)))
        case Success(cells) =>
          var row := Row(cells, Some(colour));
          assert NewRowHolds(row, values);
          Appended(Workbook(WithRow(rows, row)), Success(MaxRow(rows) + 1))
  }

  /** The sheet after its row `max_row + 1` is written: the rows above are
      kept; on an empty sheet `max_row` is 1, so row 1 stays empty. */
  function WithRow(rows: Sheet, row: Row): (r: Sheet)
    requires |row.cells| > 0
    ensures |r| == MaxRow(rows) + 1
    ensures r[..|rows|] == rows
    ensures r[|r| - 1] == row
    ensures |rows| == 0 ==> r[0] == Row([], None)
  {
    var padded := if |rows| == 0 then [Row([], None)] else rows;
    assert (padded + [row])[..|rows|] == rows;
    padded + [row]
  }

  /** The 13 values of a 1-based row, read back as values. */
  function ReadRow(s: Store, row: nat): seq<Value>
    requires s.Workbook? && 1 <= row <= |s.rows|
  {
    seq(|s.rows[row - 1].cells|, i requires 0 <= i < |s.rows[row - 1].cells| => CellValue(s.rows[row - 1].cells[i]))
  }

  /** Appending and reading the row back gives the 13 values in column order:
      the record's fields, its defaults and the sender, unchanged, as long as
      no text is longer than a cell holds. */
  lemma AppendThenRead(store: Store, data: Record, sender: string, now: Now)
    requires AppendExpense(store, data, sender, now).row.Success?
    requires forall v | v in BuildValues(data, sender, now) && v.Str? :: |v.s| <= MaxCellText
    ensures var a := AppendExpense(store, data, sender, now);
            ReadRow(a.store, a.row.value) == BuildValues(data, sender, now)
  {
    var a := AppendExpense(store, data, sender, now);
    var values := BuildValues(data, sender, now);
    var got := ReadRow(a.store, a.row.value);
    forall i | 0 <= i < Width
      ensures got[i] == values[i]
    {
      ToCellRoundTrip(values[i]);
    }
  }

  /** On a freshly created ledger the header is row 1, so the first expense
      lands in row 2 and the header is kept. */
  lemma FirstAppendIsRowTwo(store: Store, data: Record, sender: string, now: Now)
    requires store.Missing?
    requires AppendExpense(store, data, sender, now).row.Success?
    ensures var a := AppendExpense(store, data, sender, now);
            a.row.value == 2 && a.store.rows[0] == HeaderRow
  {
    var a := AppendExpense(store, data, sender, now);
    var w := GetOrCreateWorkbook(store);
    assert RowsOf(w) == [HeaderRow];
    assert a.row.value == MaxRow(RowsOf(w)) + 1;
    assert RowsOf(a.store)[..1] == [HeaderRow];
    assert RowsOf(a.store)[0] == HeaderRow;
  }

  /** Two appends in a row get consecutive, so strictly increasing, row numbers,
      and the second leaves the first one's row as it was. */
  lemma ConsecutiveAppends(store: Store, d1: Record, d2: Record, sender: string, n1: Now, n2: Now)
    requires AppendExpense(store, d1, sender, n1).row.Success?
    requires AppendExpense(AppendExpense(store, d1, sender, n1).store, d2, sender, n2).row.Success?
    ensures var a1 := AppendExpense(store, d1, sender, n1);
            var a2 := AppendExpense(a1.store, d2, sender, n2);
            && a2.row.value == a1.row.value + 1
            && a2.store.rows[a1.row.value - 1] == a1.store.rows[a1.row.value - 1]
  {
    var a1 := AppendExpense(store, d1, sender, n1);
    assert a1.store.rows[..|a1.store.rows|] == a1.store.rows;
  }
}

=== FILE: summary.dfy ===
/** `_generate_summary`: the ten most recent ledger rows, newest first, and the
    total of their amounts. Python's float parsing and number formatting are
    parameters; the selection of rows and the total are modelled. */
module Summary {
  import opened Wrappers
  import opened PyText
  import opened Ledger

  const NoRecords: string := "Henuz kayitli masraf yok."
  const Title: string := "Son 10 Masraf:\n"
  const FailurePrefix: string := "Ozet alinamadi: "

  /** The message of the `IndexError` raised when a row has fewer than five cells. */
  const IndexErrorText: string := "tuple index out of range"

  /** How many of the most recent rows the summary lists. */
  const RecentCount: nat := 10

  /** Column (0-based) of the amount. */
  const AmountColumn: nat := 4

  /** What the summary delegates to Python:
      - `parseFloat(s)`: `float(s)` for a non-empty text, `None` when it raises;
      - `showFloat(x)`: `str(x)` of a float;
      - `formatTotal(x)`: `f"{x:,.2f}"`. */
  datatype Formatting = Formatting(
    parseFloat: string -> Option<real>,
    showFloat: real -> string,
    formatTotal: real -> string)

  // ---------------------------------------------------------------------------
  // Reading the rows
  // ---------------------------------------------------------------------------

  /** `ws.iter_rows(min_row=2)` on the loaded file: the cells of every row
      after the header, as they read back from the saved file. */
  function DataRows(rows: seq<Row>): (r: seq<seq<Cell>>)
    ensures |r| == if |rows| <= 1 then 0 else |rows| - 1
    ensures forall i | 0 <= i < |r| :: r[i] == ReloadedCells(rows[i + 1].cells)
  {
    if |rows| <= 1 then [] else seq(|rows| - 1, i requires 0 <= i < |rows| - 1 => ReloadedCells(rows[i + 1].cells))
  }

  /** openpyxl's `max_column`: the width of the widest row, at least 1. Every
      row read is padded to this width. */
  function MaxColumn(rows: seq<Row>): (r: nat)
    ensures r >= 1
    ensures forall i | 0 <= i < |rows| :: |rows[i].cells| <= r
    // the width is that of some row, unless no row holds a cell
    ensures r == 1 || exists i | 0 <= i < |rows| :: |rows[i].cells| == r
  {
    if |rows| == 0 then 1
    else
      var init := rows[..|rows| - 1];
      var w := MaxColumn(init);
      var last := |rows[|rows| - 1].cells|;
      if last > w then last
      else
        assert w == 1 || exists i | 0 <= i < |rows| :: |rows[i].cells| == w by {
          if w != 1 {
            var i :| 0 <= i < |init| && |init[i].cells| == w;
            assert rows[i] == init[i];
          }
        }
        w
  }

  /** Cell `k` (0-based) of a row read with `values_only=True`: an empty cell
      past the row's own end. */
  function CellAt(row: seq<Cell>, k: nat): Cell {
    if k < |row| then row[k] else Empty
  }

  // ---------------------------------------------------------------------------
  // Choosing the rows
  // ---------------------------------------------------------------------------

  function Min(a: nat, b: nat): nat {
    if a <= b then a else b
  }

  /** `rows[-10:]`: the last ten rows in storage order, or all of them. */
  function Recent<T>(rows: seq<T>): (r: seq<T>)
    ensures |r| == Min(RecentCount, |rows|)
    ensures r == rows[|rows| - |r|..]
  {
    rows[|rows| - Min(RecentCount, |rows|)..]
  }

  /** `reversed(s)`. */
  function Reverse<T>(s: seq<T>): (r: seq<T>)
    ensures |r| == |s|
    ensures forall i | 0 <= i < |s| :: r[i] == s[|s| - 1 - i]
  {
    if |s| == 0 then [] else Reverse(s[1..]) + [s[0]]
  }

  /** The rows the summary lists: the most recent ten, newest first. */
  function Listed<T>(rows: seq<T>): (r: seq<T>)
    ensures |r| == Min(RecentCount, |rows|)
    ensures forall i | 0 <= i < |r| :: r[i] == rows[|rows| - 1 - i]
  {
    Reverse(Recent(rows))
  }

  // ---------------------------------------------------------------------------
  // The total
  // ---------------------------------------------------------------------------

  /** `float(tutar or 0)`, with a value `float` rejects counting as 0 (the
      bare `except: pass`). */
  function Amount(c: Cell, fmt: Formatting): (r: real)
    // an empty cell, an empty text, `False` and `0` are falsy: `float(0)`
    ensures c == Empty || c == TextCell("") || c == BoolCell(false) || c == IntCell(0) ==> r == 0.0
    // a text `float` refuses adds nothing instead of failing the summary
    ensures c.TextCell? && fmt.parseFloat(c.s).None? ==> r == 0.0
    ensures c.TextCell? && c.s != "" && fmt.parseFloat(c.s).Some? ==> r == fmt.parseFloat(c.s).value
    // a number counts with its value, `True` as 1
    ensures c.IntCell? ==> r == c.n as real
    ensures c.FloatCell? ==> r == c.x
    ensures c == BoolCell(true) ==> r == 1.0
  {
    match c
    case Empty => 0.0
    case BoolCell(b) => if b then 1.0 else 0.0
    case IntCell(n) => n as real
    case FloatCell(x) => x
    case TextCell(s) => if s == "" then 0.0 else fmt.parseFloat(s).GetOr(0.0)
  }

  /** A save and a load never change an amount: a whole float read back as
      an `int` and an empty text read back as an empty cell both count as
      before. */
  lemma AmountReloaded(c: Cell, fmt: Formatting)
    ensures Amount(Reloaded(c), fmt) == Amount(c, fmt)
  {
    if c.FloatCell? && WholeBelowSixteenDigits(c.x) {
      assert Reloaded(c) == IntCell(c.x.Floor);
    }
  }

  /** An amount the model returned as `125.0` is listed as `125` once the
      ledger has been saved and loaded, though its total is unchanged. */
  lemma WholeAmountListedAsInt(fmt: Formatting)
    ensures Reloaded(FloatCell(125.0)) == IntCell(125)
    ensures ShowCell(Reloaded(FloatCell(125.0)), fmt) == "125"
    ensures Amount(Reloaded(FloatCell(125.0)), fmt) == 125.0
  {
    assert WholeBelowSixteenDigits(125.0) by {
      assert (125.0).Floor == 125;
    }
    var t := IntToString(125);
    assert t == NatToString(125);
    assert NatToString(125) == NatToString(12) + [DigitChar(5)];
    assert NatToString(12) == NatToString(1) + [DigitChar(2)];
  }

  /** The sum of the amounts of the given rows. */
  function SumAmounts(rows: seq<seq<Cell>>, fmt: Formatting): real {
    if |rows| == 0 then 0.0 else Amount(CellAt(rows[0], AmountColumn), fmt) + SumAmounts(rows[1..], fmt)
  }

  lemma {:induction false} SumAmountsAppend(a: seq<seq<Cell>>, b: seq<seq<Cell>>, fmt: Formatting)
    ensures SumAmounts(a + b, fmt) == SumAmounts(a, fmt) + SumAmounts(b, fmt)
    decreases |a|
  {
    if |a| > 0 {
      assert (a + b)[1..] == a[1..] + b;
      assert (a + b)[0] == a[0];
      SumAmountsAppend(a[1..], b, fmt);
    } else {
      assert a + b == b;
    }
  }

  /** The total does not depend on the order the rows are visited in. */
  lemma {:induction false} SumAmountsReverse(rows: seq<seq<Cell>>, fmt: Formatting)
    ensures SumAmounts(Reverse(rows), fmt) == SumAmounts(rows, fmt)
    decreases |rows|
  {
    if |rows| > 0 {
      SumAmountsReverse(rows[1..], fmt);
      SumAmountsAppend(Reverse(rows[1..]), [rows[0]], fmt);
      assert Reverse(rows) == Reverse(rows[1..]) + [rows[0]];
    }
  }

  /** The loop of `_generate_summary`: visits the recent rows newest first and
      adds up their amounts. The total is that of exactly the last
      `min(10, n)` rows in storage order. */
  method RecentTotal(data: seq<seq<Cell>>, fmt: Formatting) returns (total: real)
    ensures total == SumAmounts(data[|data| - Min(RecentCount, |data|)..], fmt)
  {
    var listed := Listed(data);
    total := 0.0;
    var i := 0;
    while i < |listed|
      invariant 0 <= i <= |listed|
      invariant total == SumAmounts(listed[..i], fmt)
    {
      SumAmountsAppend(listed[..i], [listed[i]], fmt);
      assert listed[..i + 1] == listed[..i] + [listed[i]];
      total := total + Amount(CellAt(listed[i], AmountColumn), fmt);
      i := i + 1;
    }
    assert listed[..i] == Reverse(Recent(data));
    SumAmountsReverse(Recent(data), fmt);
  }

  // ---------------------------------------------------------------------------
  // The text
  // ---------------------------------------------------------------------------

  /** `str(value)` of a cell read back. */
  function ShowCell(c: Cell, fmt: Formatting): string {
    match c
    case Empty => "None"
    case BoolCell(b) => if b then "True" else "False"
    case IntCell(n) => IntToString(n)
    case FloatCell(x) => fmt.showFloat(x)
    case TextCell(s) => s
  }

  /** `f"- {tarih} | {kat} | {tutar} TRY"`. */
  function RowLine(row: seq<Cell>, fmt: Formatting): string {
    "- " + ShowCell(CellAt(row, 0), fmt) + " | " + ShowCell(CellAt(row, 2), fmt)
      + " | " + ShowCell(CellAt(row, AmountColumn), fmt) + " TRY"
  }

  function TotalLine(total: real, fmt: Formatting): string {
    "\nToplam: " + fmt.formatTotal(total) + " TRY"
  }

  /** The lines joined by `"\n"`: the title, one line per listed row, the total. */
  function ReportLines(data: seq<seq<Cell>>, fmt: Formatting): (r: seq<string>)
    ensures |r| == Min(RecentCount, |data|) + 2
    ensures r[0] == Title && r[|r| - 1] == TotalLine(SumAmounts(Recent(data), fmt), fmt)
    ensures forall i | 1 <= i <= Min(RecentCount, |data|) :: r[i] == RowLine(data[|data| - i], fmt)
  {
    var listed := Listed(data);
    SumAmountsReverse(Recent(data), fmt);
    [Title] + seq(|listed|, i requires 0 <= i < |listed| => RowLine(listed[i], fmt))
      + [TotalLine(SumAmounts(listed, fmt), fmt)]
  }

  /** The ledger after the summary (opening may have created it), and the text. */
  datatype Report = Report(store: Store, text: string)

  /** `_generate_summary()`: never raises; every failure becomes a text. */
  function GenerateSummary(store: Store, fmt: Formatting): (r: Report)
    // the summary only reads; at most it creates a missing ledger
    ensures r.store == GetOrCreateWorkbook(store)
    ensures store.Unreadable? ==> r.text == FailurePrefix + store.reason
    ensures !store.Unreadable? && |DataRows(RowsOf(r.store))| == 0 ==> r.text == NoRecords
    ensures store.Missing? ==> r.text == NoRecords
    ensures !store.Unreadable? && |DataRows(RowsOf(r.store))| > 0 && MaxColumn(RowsOf(r.store)) <= AmountColumn ==>
              r.text == FailurePrefix + IndexErrorText
    ensures !store.Unreadable? && |DataRows(RowsOf(r.store))| > 0 && MaxColumn(RowsOf(r.store)) > AmountColumn ==>
              r.text == Join(ReportLines(DataRows(RowsOf(r.store)), fmt), "\n")
  {
    var book := GetOrCreateWorkbook(store);
    if book.Unreadable? then Report(book, FailurePrefix + book.reason)
    else
      var data := DataRows(RowsOf(book));
      if |data| == 0 then Report(book, NoRecords)
      // tarih, saat, kat, acik, tutar = r[0], ..., r[4] on rows narrower than 5
      else if MaxColumn(RowsOf(book)) <= AmountColumn then Report(book, FailurePrefix + IndexErrorText)
      else Report(book, Join(ReportLines(data, fmt), "\n"))
  }

  // ---------------------------------------------------------------------------
  // On a ledger this program writes, the summary never reports a failure
  // ---------------------------------------------------------------------------

  /** A ledger as the program leaves it: not yet created, or loaded with the
      full-width header as row 1. */
  predicate Wellformed(s: Store) {
    || s.Missing?
    || (s.Workbook? && |s.rows| >= 1 && |s.rows[0].cells| == Width)
  }

  lemma AppendKeepsWellformed(store: Store, data: Values.Record, sender: string, now: Now)
    requires Wellformed(store)
    ensures Wellformed(AppendExpense(store, data, sender, now).store)
  {
    var book := GetOrCreateWorkbook(store);
    assert |RowsOf(book)| >= 1 && RowsOf(book)[0] == RowsOf(book)[..|RowsOf(book)|][0];
  }

  /** On a well-formed ledger the summary is either the "no records" message
      or the listing, never a failure message. */
  lemma SummaryOfWellformed(store: Store, fmt: Formatting)
    requires Wellformed(store)
    ensures var r := GenerateSummary(store, fmt);
            r.text == NoRecords || r.text == Join(ReportLines(DataRows(RowsOf(r.store)), fmt), "\n")
  {
    var rows := RowsOf(GetOrCreateWorkbook(store));
    assert |rows[0].cells| <= MaxColumn(rows);
  }
}

=== FILE: text.dfy ===
/** The few Python `str` operations the webhook and the reply cleanup rely on:
    `strip()`, `startswith`, `in`, `split(sep)[1]`, `lower()`, `sep.join(...)`
    and `str(n)` for an integer. */
module PyText {
  import opened Wrappers

  // ---------------------------------------------------------------------------
  // Whitespace and strip()
  // ---------------------------------------------------------------------------

  /** Python's `str.isspace()` for one character: the ASCII blanks \t \n \v \f \r
      and space, the separators \x1c-\x1f, and the Unicode space characters. */
  predicate IsSpace(c: char) {
    || c == ' '
    || ('\t' <= c <= '\r')
    || ('\U{1C}' <= c <= '\U{1F}')
    || c == '\U{85}' || c == '\U{A0}' || c == '\U{1680}'
    || ('\U{2000}' <= c <= '\U{200A}')
    || c == '\U{2028}' || c == '\U{2029}' || c == '\U{202F}' || c == '\U{205F}' || c == '\U{3000}'
  }

  predicate AllSpace(s: string) {
    forall i | 0 <= i < |s| :: IsSpace(s[i])
  }

  /** A string that `strip()` leaves alone: it neither starts nor ends with whitespace. */
  predicate Trimmed(s: string) {
    s == [] || (!IsSpace(s[0]) && !IsSpace(s[|s| - 1]))
  }

  /** The index of the first character at or after `i` that is not
      whitespace, or `|s|`: where `lstrip()` cuts. */
  function LeadFrom(s: string, i: nat): (r: nat)
    requires i <= |s|
    ensures i <= r <= |s|
    ensures forall k | i <= k < r :: IsSpace(s[k])
    ensures r == |s| || !IsSpace(s[r])
    decreases |s| - i
  {
    if i < |s| && IsSpace(s[i]) then LeadFrom(s, i + 1) else i
  }

  /** Number of leading whitespace characters of `s`. */
  function Lead(s: string): nat {
    LeadFrom(s, 0)
  }

  /** The end of `s[lo..j]` once its trailing whitespace is cut: where
      `rstrip()` cuts. */
  function EndFrom(s: string, lo: nat, j: nat): (r: nat)
    requires lo <= j <= |s|
    ensures lo <= r <= j
    ensures forall k | r <= k < j :: IsSpace(s[k])
    ensures r == lo || !IsSpace(s[r - 1])
    decreases j
  {
    if j > lo && IsSpace(s[j - 1]) then EndFrom(s, lo, j - 1) else j
  }

  /** `s.strip()`: the slice of `s` between its leading and its trailing
      whitespace; what is cut on either side is whitespace. */
  function Strip(s: string): (r: string)
    ensures Trimmed(r)
    ensures Lead(s) + |r| <= |s|
    ensures r == s[Lead(s)..Lead(s) + |r|]
    ensures AllSpace(s[..Lead(s)]) && AllSpace(s[Lead(s) + |r|..])
  {
    var n := Lead(s);
    var e := EndFrom(s, n, |s|);
    assert AllSpace(s[..n]) by {
      forall k | 0 <= k < n ensures IsSpace(s[..n][k]) { }
    }
    assert AllSpace(s[e..]) by {
      forall k | 0 <= k < |s| - e ensures IsSpace(s[e..][k]) { }
    }
    s[n..e]
  }

  /** The first non-whitespace index is determined by its two defining facts. */
  lemma LeadIs(s: string, m: nat)
    requires m <= |s|
    requires forall k | 0 <= k < m :: IsSpace(s[k])
    requires m == |s| || !IsSpace(s[m])
    ensures Lead(s) == m
  {
  }

  /** The end after cutting trailing whitespace is determined likewise. */
  lemma EndIs(s: string, lo: nat, m: nat)
    requires lo <= m <= |s|
    requires forall k | m <= k < |s| :: IsSpace(s[k])
    requires m == lo || !IsSpace(s[m - 1])
    ensures EndFrom(s, lo, |s|) == m
  {
  }

  /** `strip()` is characterised by its result: whenever `s` is a trimmed core
      `x` wrapped in whitespace on both sides, `strip()` returns exactly `x`. */
  lemma StripPadded(p: string, x: string, q: string)
    requires AllSpace(p) && AllSpace(q) && Trimmed(x)
    ensures Strip(p + x + q) == x
  {
    var s := p + x + q;
    if x == [] {
      forall k | 0 <= k < |s| ensures IsSpace(s[k]) {
        if k < |p| { assert s[k] == p[k]; } else { assert s[k] == q[k - |p|]; }
      }
      LeadIs(s, |s|);
      EndIs(s, |s|, |s|);
    } else {
      forall k | 0 <= k < |p| ensures IsSpace(s[k]) {
        assert s[k] == p[k];
      }
      assert s[|p|] == x[0];
      LeadIs(s, |p|);
      forall k | |p| + |x| <= k < |s| ensures IsSpace(s[k]) {
        assert s[k] == q[k - |p| - |x|];
      }
      assert s[|p| + |x| - 1] == x[|x| - 1];
      EndIs(s, |p|, |p| + |x|);
      assert s[|p|..|p| + |x|] == x;
    }
  }

  /** Stripping twice is stripping once. */
  lemma StripIdempotent(s: string)
    ensures Strip(Strip(s)) == Strip(s)
  {
    var x := Strip(s);
    assert [] + x + [] == x;
    StripPadded([], x, []);
  }

  // ---------------------------------------------------------------------------
  // Substring search: startswith, `in`, split(sep)[1]
  // ---------------------------------------------------------------------------

  predicate StartsWith(s: string, prefix: string) {
    |prefix| <= |s| && s[..|prefix|] == prefix
  }

  /** `pat` occurs in `s` starting at index `k`. */
  predicate OccursAt(s: string, pat: string, k: int) {
    0 <= k && k + |pat| <= |s| && s[k..k + |pat|] == pat
  }

  /** `s.find(pat, start)`: the first occurrence of `pat` at or after `start`. */
  function FindFrom(s: string, pat: string, start: nat): (r: Option<nat>)
    ensures r.Some? ==> start <= r.value && OccursAt(s, pat, r.value)
    ensures r.Some? ==> forall k | start <= k < r.value :: !OccursAt(s, pat, k)
    ensures r.None? ==> forall k | start <= k :: !OccursAt(s, pat, k)
    decreases |s| - start
  {
    if start + |pat| > |s| then None
    else if OccursAt(s, pat, start) then Some(start)
    else FindFrom(s, pat, start + 1)
  }

  /** `FindFrom` returns exactly the first occurrence at or after `start`. */
  lemma FindFromIs(s: string, pat: string, start: nat, j: nat)
    requires start <= j && OccursAt(s, pat, j)
    requires forall k | start <= k < j :: !OccursAt(s, pat, k)
    ensures FindFrom(s, pat, start) == Some(j)
  {
  }

  /** Python's `pat in s`. */
  predicate Contains(s: string, pat: string) {
    FindFrom(s, pat, 0).Some?
  }

  lemma ContainsIffOccurs(s: string, pat: string)
    ensures Contains(s, pat) <==> exists k :: OccursAt(s, pat, k)
  {
  }

  /** An occurrence in a suffix is an occurrence in the whole string, shifted. */
  lemma OccursInSuffix(s: string, n: nat, pat: string, k: int)
    requires n <= |s| && 0 <= k
    ensures OccursAt(s[n..], pat, k) <==> OccursAt(s, pat, n + k)
  {
    if 0 <= k && k + |pat| <= |s| - n {
      assert s[n..][k..k + |pat|] == s[n + k..n + k + |pat|];
    }
  }

  /** An occurrence in a prefix is an occurrence in the whole string. */
  lemma OccursInPrefix(s: string, n: nat, pat: string, k: int)
    requires n <= |s|
    requires OccursAt(s[..n], pat, k)
    ensures OccursAt(s, pat, k)
  {
    assert s[..n][k..k + |pat|] == s[k..k + |pat|];
  }

  /** `s.split(sep)[1]`: the text between the first and the second occurrence of
      `sep`, or up to the end of `s` when `sep` occurs only once. The text that
      follows it in `s` is empty or starts with `sep`, no occurrence of `sep`
      starts inside it, so in particular it contains no `sep`. */
  function SplitSecond(s: string, sep: string): (r: string)
    requires |sep| > 0 && Contains(s, sep)
    ensures var t := s[FindFrom(s, sep, 0).value + |sep|..];
            && StartsWith(t, r)
            && (|t| == |r| || StartsWith(t[|r|..], sep))
            && (forall k | 0 <= k < |r| :: !OccursAt(t, sep, k))
    ensures !Contains(r, sep)
  {
    var n := FindFrom(s, sep, 0).value + |sep|;
    var j := FindFrom(s, sep, n);
    var r := if j.Some? then s[n..j.value] else s[n..];
    SplitSecondFacts(s, sep, n, r);
    r
  }

  lemma SplitSecondFacts(s: string, sep: string, n: nat, r: string)
    requires |sep| > 0 && n <= |s|
    requires var j := FindFrom(s, sep, n); r == if j.Some? then s[n..j.value] else s[n..]
    ensures var t := s[n..];
            && StartsWith(t, r)
            && (|t| == |r| || StartsWith(t[|r|..], sep))
            && (forall k | 0 <= k < |r| :: !OccursAt(t, sep, k))
    ensures !Contains(r, sep)
  {
    var t := s[n..];
    var j := FindFrom(s, sep, n);
    assert r == t[..|r|];
    forall k | 0 <= k < |r|
      ensures !OccursAt(t, sep, k)
    {
      OccursInSuffix(s, n, sep, k);
    }
    if j.Some? {
      assert t[|r|..][..|sep|] == s[j.value..j.value + |sep|];
    }
    if Contains(r, sep) {
      var k := FindFrom(r, sep, 0).value;
      OccursInPrefix(t, |r|, sep, k);
    }
  }

  // ---------------------------------------------------------------------------
  // lower()
  // ---------------------------------------------------------------------------

  /** Python's `lower()` on one character, for the characters whose lower-case
      form is a single ASCII letter: A-Z and the Kelvin sign. Every other
      character is kept. */
  function LowerChar(c: char): char {
    if 'A' <= c <= 'Z' then (c as int + 32) as char
    else if c == '\U{212A}' then 'k'
    else c
  }

  function Lower(s: string): (r: string)
    ensures |r| == |s|
    ensures forall i | 0 <= i < |s| :: r[i] == LowerChar(s[i])
  {
    seq(|s|, i requires 0 <= i < |s| => LowerChar(s[i]))
  }

  // ---------------------------------------------------------------------------
  // sep.join(parts)
  // ---------------------------------------------------------------------------

  /** `sep.join(parts)`: the parts in order with `sep` between neighbours. */
  function Join(parts: seq<string>, sep: string): (r: string)
    ensures |parts| > 0 ==> StartsWith(r, parts[0])
    ensures |parts| >= 2 ==> |r| >= |parts[0]| + |sep|
    decreases |parts|
  {
    if |parts| == 0 then ""
    else if |parts| == 1 then parts[0]
    else
      var init := Join(parts[..|parts| - 1], sep);
      var r := init + sep + parts[|parts| - 1];
      assert r[..|parts[0]|] == init[..|parts[0]|];
      r
  }

  /** With a non-empty separator, a join is empty exactly when there is nothing
      to join or the only part is empty. */
  lemma JoinEmpty(parts: seq<string>, sep: string)
    requires |sep| > 0
    ensures Join(parts, sep) == "" <==> (|parts| == 0 || (|parts| == 1 && parts[0] == ""))
  {
    if |parts| >= 2 {
      assert |Join(parts, sep)| >= |sep|;
    }
  }

  // ---------------------------------------------------------------------------
  // str(n)
  // ---------------------------------------------------------------------------

  predicate IsDigit(c: char) {
    '0' <= c <= '9'
  }

  predicate AllDigits(s: string) {
    forall i | 0 <= i < |s| :: IsDigit(s[i])
  }

  function DigitChar(d: nat): (c: char)
    requires d < 10
    ensures IsDigit(c) && c as int - '0' as int == d
  {
    ('0' as int + d) as char
  }

  /** The number a string of decimal digits denotes. */
  function DecimalValue(s: string): nat
    requires AllDigits(s)
  {
    if s == [] then 0
    else 10 * DecimalValue(s[..|s| - 1]) + (s[|s| - 1] as int - '0' as int)
  }

  /** `str(n)`: the canonical decimal spelling of `n`, which reads back as `n`
      and has no leading zero. */
  function NatToString(n: nat): (r: string)
    ensures |r| > 0 && AllDigits(r)
    ensures DecimalValue(r) == n
    ensures n > 0 ==> r[0] != '0'
    ensures r[0] == '0' ==> r == "0"
    decreases n
  {
    if n < 10 then [DigitChar(n)]
    else
      var prefix := NatToString(n / 10);
      var r := prefix + [DigitChar(n % 10)];
      assert r[..|r| - 1] == prefix;
      r
  }

  /** Distinct numbers are spelt differently. */
  lemma NatToStringInjective(m: nat, n: nat)
    requires NatToString(m) == NatToString(n)
    ensures m == n
  {
  }

  /** `str(n)` for any `int`: the digits of `|n|`, after a minus sign when `n`
      is negative. */
  function IntToString(n: int): (r: string)
    ensures |r| > 0
    ensures n >= 0 ==> AllDigits(r) && DecimalValue(r) == n
    ensures n < 0 ==> |r| >= 2 && r[0] == '-' && AllDigits(r[1..]) && DecimalValue(r[1..]) == -n
    // no leading zero, except in "0" itself
    ensures n >= 0 ==> r[0] != '0' || r == "0"
    ensures n < 0 ==> r[1] != '0'
  {
    if n >= 0 then NatToString(n) else "-" + NatToString(-n)
  }

  /** Distinct integers are spelt differently. */
  lemma IntToStringInjective(m: int, n: int)
    requires IntToString(m) == IntToString(n)
    ensures m == n
  {
  }
}

=== FILE: values.dfy ===
/** The values that flow from the model's JSON reply into the ledger: a JSON
    value as Python's `json.loads` hands it over, the reply as a whole, and
    Python's truthiness and `str()` of a value. */
module Values {
  import opened PyText

  /** One JSON value. Arrays and objects nested inside the reply are never
      looked into; they are known only by their Python text form and whether
      they are non-empty, which is all the program ever uses of them. A JSON
      number without a fraction or an exponent is a Python `int`; any other
      number is a `float`. */
  datatype Value =
    | Null
    | Bool(b: bool)
    | Int(n: int)
    | Float(x: real)
    | Str(s: string)
    | Nested(text: string, nonEmpty: bool)

  /** The extracted record: the keys of a JSON object mapped to their values. */
  type Record = map<string, Value>

  /** What `json.loads` returns for a reply that parses: an object, or some
      other JSON value at the top level. */
  datatype Parsed = Object(fields: Record) | NonObject(value: Value)

  /** Python's `bool(v)`: `None`, `False`, zero, `""`, `[]` and `{}` are false. */
  predicate Truthy(v: Value) {
    match v
    case Null => false
    case Bool(b) => b
    case Int(n) => n != 0
    case Float(x) => x != 0.0
    case Str(s) => s != ""
    case Nested(_, nonEmpty) => nonEmpty
  }

  /** Python's `bool(data)` for a parsed reply; an object is true when it has a key. */
  predicate ParsedTruthy(p: Parsed) {
    match p
    case Object(fields) => |fields| > 0
    case NonObject(v) => Truthy(v)
  }

  /** `data.get(key, default)`. */
  function Get(data: Record, key: string, default: Value): (v: Value)
    ensures key in data ==> v == data[key]
    ensures key !in data ==> v == default
  {
    if key in data then data[key] else default
  }

  /** Python's `str(v)` inside an f-string. An `int` is spelt in decimal; how a
      float is spelt (`125.0`, `125.5`, `1e+20`) is left to `showFloat`. */
  function Show(v: Value, showFloat: real -> string): string {
    match v
    case Null => "None"
    case Bool(b) => if b then "True" else "False"
    case Int(n) => IntToString(n)
    case Float(x) => showFloat(x)
    case Str(s) => s
    case Nested(text, _) => text
  }
}

=== FILE: webhook.dfy ===
/** `webhook`: the routing of one inbound message. Without media the body text
    selects the summary or the help text; with media each attachment is
    checked, analysed and appended to the ledger in arrival order, and the
    result lines are joined into the reply. The HTTP and TwiML layers are not
    modelled: the request is its form fields and the response is the reply
    text, or a server error when an exception escapes the handler. */
module Webhook {
  import opened Wrappers
  import opened PyText
  import opened Values
  import opened Ledger
  import opened Extraction
  import opened Summary

  const HelpText: string :=
    "Merhaba!" + " Fatura, fis veya banka dekontu fotografi gonder, otomatik olarak Excel'e kaydedeyim."
    + "\n\n'ozet' yazarak son 10 masrafini gorebilirsin."
  const UnsupportedText: string := "Bu dosya turunu okuyamiyorum, lutfen fotograf gonder."
  const UnreadableText: string := "Gorsel okunamadi. Sunucu loglarini kontrol et."
  const DoneText: string := "Islem tamamlandi."
  const UnknownSender: string := "Bilinmeyen"
  const ImagePrefix: string := "image/"
  const LineSeparator: string := "\n\n"

  /** The words that ask for the summary, compared after lower-casing. */
  const SummaryKeywords: set<string> := {"ozet", "summary", "rapor"}

  /** The form fields of the inbound request. */
  type Form = map<string, string>

  /** Everything the handler consults besides the request and the ledger:
      the download, the model and the JSON parser; Python's float and number
      formatting; `int()` on a form field (`None` when it raises); the clock,
      which `append_expense` reads anew for every attachment: `clock(i)` is its
      reading while attachment `i` is appended. */
  datatype Env = Env(services: Services, fmt: Formatting, parseInt: string -> Option<int>, clock: nat -> Now)

  /** `form.get(key, default)`. */
  function Field(form: Form, key: string, default: string): string {
    if key in form then form[key] else default
  }

  // ---------------------------------------------------------------------------
  // Text commands
  // ---------------------------------------------------------------------------

  /** The stripped body, lower-cased, is one of the summary keywords. */
  predicate IsSummaryCommand(body: string) {
    Lower(Strip(body)) in SummaryKeywords
  }

  /** The command ignores whitespace around the body and the case of its
      letters: a keyword padded with whitespace, in any mix of upper and lower
      case, asks for the summary, and nothing else padded does. */
  lemma SummaryCommandOfPadded(p: string, word: string, q: string)
    requires AllSpace(p) && AllSpace(q) && Trimmed(word)
    ensures IsSummaryCommand(p + word + q) <==> Lower(word) in SummaryKeywords
  {
    StripPadded(p, word, q);
  }

  /** Some bodies and the branch they select. */
  lemma SummaryCommandUpperCase()
    ensures IsSummaryCommand(" OZET\n")
  {
    var word := "OZET";
    assert Lower(word) == "ozet" by {
      assert Lower(word)[0] == 'o' && Lower(word)[1] == 'z' && Lower(word)[2] == 'e' && Lower(word)[3] == 't';
    }
    assert " OZET\n" == " " + word + "\n";
    SummaryCommandOfPadded(" ", word, "\n");
  }

  lemma SummaryCommandMixedCase()
    ensures IsSummaryCommand("RaPoR")
  {
    var word := "RaPoR";
    LowerMixed(word);
    assert word == "" + word + "";
    SummaryCommandOfPadded("", word, "");
  }

  lemma LowerMixed(word: string)
    requires word == "RaPoR"
    ensures Lower(word) == "rapor"
  {
    assert Lower(word)[0] == 'r' && Lower(word)[1] == 'a' && Lower(word)[2] == 'p';
    assert Lower(word)[3] == 'o' && Lower(word)[4] == 'r';
  }

  lemma SummaryCommandLowerCase()
    ensures IsSummaryCommand("summary")
  {
    var word := "summary";
    assert Lower(word) == word by {
      forall i | 0 <= i < |word| ensures Lower(word)[i] == word[i] {
        assert 'a' <= word[i] <= 'z';
      }
    }
    assert word == "" + word + "";
    SummaryCommandOfPadded("", word, "");
  }

  /** The Turkish spelling with a diacritic is not a keyword. */
  lemma SummaryCommandNeedsAscii()
    ensures !IsSummaryCommand("\U{F6}zet")
  {
    var word := "\U{F6}zet";
    assert Lower(word)[0] == '\U{F6}';
    assert Lower(word) !in SummaryKeywords by {
      assert "ozet"[0] == 'o' && "summary"[0] == 's' && "rapor"[0] == 'r';
    }
    assert word == "" + word + "";
    SummaryCommandOfPadded("", word, "");
  }

  // ---------------------------------------------------------------------------
  // Attachments
  // ---------------------------------------------------------------------------

  /** Attachment `index`: `MediaUrl{index}` (if sent) and
      `MediaContentType{index}` (or ""). */
  datatype Media = Media(url: Option<string>, contentType: string, index: nat)

  /** The attachments `range(num_media)` visits, in arrival order. */
  function MediaItems(form: Form, count: int): (r: seq<Media>)
    ensures |r| == if count > 0 then count else 0
    // item `i` is read from the fields numbered `i`
    ensures forall i | 0 <= i < |r| ::
      && r[i].url == (if "MediaUrl" + NatToString(i) in form then Some(form["MediaUrl" + NatToString(i)]) else None)
      && r[i].contentType == Field(form, "MediaContentType" + NatToString(i), "")
      && r[i].index == i
  {
    seq(if count > 0 then count else 0, i requires 0 <= i =>
      var urlKey := "MediaUrl" + NatToString(i);
      Media(if urlKey in form then Some(form[urlKey]) else None,
            Field(form, "MediaContentType" + NatToString(i), ""), i))
  }

  /** An attachment is analysed only when it has a non-empty URL and an
      `image/` content type. */
  predicate Accepted(m: Media) {
    m.url.Some? && m.url.value != "" && StartsWith(m.contentType, ImagePrefix)
  }

  /** The result line of one attachment. */
  datatype Line = Unsupported | NotRead | Saved(data: Record, row: nat)

  /** The handler's fixed inputs while it loops over the attachments. */
  datatype Ctx = Ctx(env: Env, sender: string, accountSid: string)

  /** The ledger after one attachment, and its line; `None` when an exception
      escapes (the ledger could not be loaded or written, or the reply was a
      JSON value other than an object). */
  datatype ItemOutcome = ItemOutcome(store: Store, line: Option<Line>)

  /** The ledger after a row was appended: the earlier rows, header included,
      then the new one, which is the last and numbered `row`. */
  predicate GrewTo(before: Store, after: Store, row: nat) {
    && after.Workbook?
    && row == |after.rows| && row >= 2 && |RowsOf(before)| < row
    && after.rows[..|RowsOf(before)|] == RowsOf(before)
    && (|RowsOf(before)| >= 1 ==> row == |RowsOf(before)| + 1)
  }

  /** One pass of the loop body: reject, or analyse and append. */
  function ProcessItem(store: Store, m: Media, ctx: Ctx): (r: ItemOutcome)
    // a rejected attachment gives the "unsupported" line and touches nothing;
    // no accepted one gives that line
    ensures !Accepted(m) ==> r == ItemOutcome(store, Some(Unsupported))
    ensures r.line == Some(Unsupported) <==> !Accepted(m)
    // only a saved line changes the ledger's rows
    ensures r.line.Some? && !r.line.value.Saved? ==> r.store == store
    ensures r.line.Some? && r.line.value.Saved? ==>
      && Accepted(m)
      && AppendExpense(store, r.line.value.data, ctx.sender, ctx.env.clock(m.index)) == Appended(r.store, Success(r.line.value.row))
    ensures r.line.Some? && r.line.value.Saved? ==> GrewTo(store, r.store, r.line.value.row)
    ensures r.line.None? ==> RowsOf(r.store) == RowsOf(GetOrCreateWorkbook(store))
    // an accepted attachment that is not analysed, or whose reply is falsy,
    // gives the "could not read" line and touches nothing
    ensures Accepted(m) && (var a := AnalyzeImage(ctx.env.services, m.url.value, ctx.accountSid);
                            a.None? || !ParsedTruthy(a.value))
            ==> r == ItemOutcome(store, Some(NotRead))
    // a truthy reply that is not an object raises once the ledger is opened
    ensures Accepted(m) && (var a := AnalyzeImage(ctx.env.services, m.url.value, ctx.accountSid);
                            a.Some? && a.value.NonObject? && ParsedTruthy(a.value))
            ==> r == ItemOutcome(GetOrCreateWorkbook(store), None)
    // a non-empty object is appended: saved under the returned row, or the
    // append's exception escapes
    ensures Accepted(m) && (var a := AnalyzeImage(ctx.env.services, m.url.value, ctx.accountSid);
                            a.Some? && a.value.Object? && ParsedTruthy(a.value))
            ==> var a := AppendExpense(store, AnalyzeImage(ctx.env.services, m.url.value, ctx.accountSid).value.fields,
                                       ctx.sender, ctx.env.clock(m.index));
                r.store == a.store
                && (a.row.Success? ==> r.line == Some(Saved(AnalyzeImage(ctx.env.services, m.url.value, ctx.accountSid).value.fields, a.row.value)))
                && (a.row.Failure? ==> r.line.None?)
    // a saved record is the object the model's reply parsed to
    ensures r.line.Some? && r.line.value.Saved? ==>
      AnalyzeImage(ctx.env.services, m.url.value, ctx.accountSid) == Some(Object(r.line.value.data))
  {
    if !Accepted(m) then ItemOutcome(store, Some(Unsupported))
    else
      match AnalyzeImage(ctx.env.services, m.url.value, ctx.accountSid)
      case None => ItemOutcome(store, Some(NotRead))
      case Some(parsed) =>
        if !ParsedTruthy(parsed) then ItemOutcome(store, Some(NotRead))
        else
          match parsed
          // `data.get` on a non-dict raises, after the ledger has been opened
          case NonObject(_) => ItemOutcome(GetOrCreateWorkbook(store), None)
          case Object(fields) =>
            var a := AppendExpense(store, fields, ctx.sender, ctx.env.clock(m.index));
            if a.row.Success? then ItemOutcome(a.store, Some(Saved(fields, a.row.value)))
            else ItemOutcome(a.store, None)
  }

  /** The ledger and the lines after a prefix of the attachments; `crashed`
      when an exception ended the loop. */
  datatype Progress = Progress(store: Store, lines: seq<Line>, crashed: bool)

  /** A photo the model reads as a non-empty record is saved when the ledger
      accepts the row; the line names the row it went to. */
  lemma RecordIsSaved(store: Store, m: Media, ctx: Ctx, record: Record)
    requires Accepted(m)
    requires AnalyzeImage(ctx.env.services, m.url.value, ctx.accountSid) == Some(Object(record))
    requires |record| > 0
    requires AppendExpense(store, record, ctx.sender, ctx.env.clock(m.index)).row.Success?
    ensures var a := AppendExpense(store, record, ctx.sender, ctx.env.clock(m.index));
            ProcessItem(store, m, ctx) == ItemOutcome(a.store, Some(Saved(record, a.row.value)))
  {
  }

  /** The loop body as a value: the loop below is reasoned about from the
      body's contract alone. */
  type Step = (Store, Media) -> ItemOutcome

  /** The handler's loop body. */
  function ItemStep(ctx: Ctx): Step {
    (s: Store, m: Media) => ProcessItem(s, m, ctx)
  }

  /** What one pass of the loop body guarantees about the ledger and the line. */
  predicate StepKeeps(s: Store, m: Media, o: ItemOutcome) {
    && (!Accepted(m) ==> o == ItemOutcome(s, Some(Unsupported)))
    && (o.line == Some(Unsupported) <==> !Accepted(m))
    && (o.line.Some? && !o.line.value.Saved? ==> o.store == s)
    && (o.line.Some? && o.line.value.Saved? ==> GrewTo(s, o.store, o.line.value.row))
    && (o.line.None? ==> RowsOf(o.store) == RowsOf(GetOrCreateWorkbook(s)))
  }

  /** A loop body that keeps that guarantee on every ledger and attachment. */
  ghost predicate Lawful(step: Step) {
    forall s: Store, m: Media :: StepKeeps(s, m, step(s, m))
  }

  /** The handler's loop body keeps the guarantee. */
  lemma ItemStepIsLawful(ctx: Ctx)
    ensures Lawful(ItemStep(ctx))
  {
    forall s: Store, m: Media ensures StepKeeps(s, m, ItemStep(ctx)(s, m)) {
      var o := ProcessItem(s, m, ctx);
      assert ItemStep(ctx)(s, m) == o;
    }
  }

  /** The loop over the attachments, in order, stopping at an exception. */
  function ProcessAll(store: Store, items: seq<Media>, step: Step): (p: Progress)
    ensures !p.crashed ==> |p.lines| == |items|
    ensures p.crashed ==> |p.lines| < |items|
    decreases |items|
  {
    if |items| == 0 then Progress(store, [], false)
    else
      var prev := ProcessAll(store, items[..|items| - 1], step);
      if prev.crashed then prev
      else
        var o := step(prev.store, items[|items| - 1]);
        if o.line.None? then Progress(o.store, prev.lines, true)
        else Progress(o.store, prev.lines + [o.line.value], false)
  }

  /** Line `i` is the "unsupported" line exactly when attachment `i` was
      rejected. */
  predicate LinesMatch(lines: seq<Line>, items: seq<Media>)
    requires |lines| <= |items|
  {
    forall i | 0 <= i < |lines| :: lines[i].Unsupported? <==> !Accepted(items[i])
  }

  /** Lines come in arrival order: line `i` belongs to attachment `i`, and it
      is the "unsupported" line exactly when that attachment was rejected. */
  lemma {:induction false} LinesFollowItems(store: Store, items: seq<Media>, step: Step)
    requires Lawful(step)
    ensures var p := ProcessAll(store, items, step);
            forall i | 0 <= i < |p.lines| :: p.lines[i].Unsupported? <==> !Accepted(items[i])
  {
    LinesMatchAll(store, items, step);
  }

  lemma {:induction false} LinesMatchAll(store: Store, items: seq<Media>, step: Step)
    requires Lawful(step)
    ensures LinesMatch(ProcessAll(store, items, step).lines, items)
    decreases |items|
  {
    if |items| > 0 {
      var n := |items| - 1;
      LinesMatchAll(store, items[..n], step);
      var prev := ProcessAll(store, items[..n], step);
      if prev.crashed {
        LinesKept(prev.lines, items);
      } else {
        var o := step(prev.store, items[n]);
        assert StepKeeps(prev.store, items[n], o);
        if o.line.Some? {
          LineAppended(prev.lines, items, o.line.value);
        } else {
          LinesKept(prev.lines, items);
        }
      }
    }
  }

  lemma LineAppended(lines: seq<Line>, items: seq<Media>, line: Line)
    requires |lines| + 1 == |items|
    requires LinesMatch(lines, items[..|lines|])
    requires line.Unsupported? <==> !Accepted(items[|lines|])
    ensures LinesMatch(lines + [line], items)
  {
  }

  lemma LinesKept(lines: seq<Line>, items: seq<Media>)
    requires |lines| < |items|
    requires LinesMatch(lines, items[..|items| - 1])
    ensures LinesMatch(lines, items)
  {
  }

  /** Attachments that are all rejected leave the ledger untouched and each
      give the "unsupported" line. */
  lemma {:induction false} RejectedItemsTouchNothing(store: Store, items: seq<Media>, step: Step)
    requires Lawful(step)
    requires forall i | 0 <= i < |items| :: !Accepted(items[i])
    ensures ProcessAll(store, items, step) == Progress(store, seq(|items|, _ => Unsupported), false)
    decreases |items|
  {
    if |items| > 0 {
      RejectedItemsTouchNothing(store, items[..|items| - 1], step);
      assert seq(|items| - 1, _ => Unsupported) + [Unsupported] == seq(|items|, _ => Unsupported);
    }
  }

  /** Number of saved lines. */
  function SavedCount(lines: seq<Line>): nat {
    if |lines| == 0 then 0 else SavedCount(lines[..|lines| - 1]) + if lines[|lines| - 1].Saved? then 1 else 0
  }

  /** On an opened ledger, a request that does not crash adds exactly one row
      per saved line and keeps every earlier row, header included. */
  lemma {:induction false} RowsGrowBySaved(store: Store, items: seq<Media>, step: Step)
    requires Lawful(step)
    requires store.Workbook? && |store.rows| >= 1
    ensures var p := ProcessAll(store, items, step);
            && p.store.Workbook?
            && |p.store.rows| >= |store.rows|
            && p.store.rows[..|store.rows|] == store.rows
            && (!p.crashed ==> |p.store.rows| == |store.rows| + SavedCount(p.lines))
    decreases |items|
  {
    if |items| > 0 {
      var init := items[..|items| - 1];
      RowsGrowBySaved(store, init, step);
      var prev := ProcessAll(store, init, step);
      if !prev.crashed {
        var o := step(prev.store, items[|items| - 1]);
        assert StepKeeps(prev.store, items[|items| - 1], o);
        if o.line.Some? {
          assert (prev.lines + [o.line.value])[..|prev.lines|] == prev.lines;
          if o.line.value.Saved? {
            assert GrewTo(prev.store, o.store, o.line.value.row);
            PrefixOfPrefix(o.store.rows, prev.store.rows, |store.rows|);
          }
        }
      }
    }
  }

  lemma PrefixOfPrefix<T>(a: seq<T>, b: seq<T>, n: nat)
    requires |b| <= |a| && a[..|b|] == b && n <= |b|
    ensures a[..n] == b[..n]
  {
    assert forall k | 0 <= k < n :: a[..n][k] == a[..|b|][k];
  }

  /** Saved lines name rows 2 and up of the current ledger. */
  predicate SavedRowsWithin(lines: seq<Line>, store: Store) {
    forall i | 0 <= i < |lines| && lines[i].Saved? :: 2 <= lines[i].row <= |RowsOf(store)|
  }

  /** Saved lines name strictly increasing rows. */
  predicate SavedRowsIncrease(lines: seq<Line>) {
    forall i, j | 0 <= i < j < |lines| && lines[i].Saved? && lines[j].Saved? :: lines[i].row < lines[j].row
  }

  /** Within one request, the saved attachments land in distinct, strictly
      increasing rows below the header, all of which exist afterwards. */
  lemma {:induction false} SavedRowsAreFresh(store: Store, items: seq<Media>, step: Step)
    requires Lawful(step)
    ensures var p := ProcessAll(store, items, step);
            SavedRowsIncrease(p.lines) && SavedRowsWithin(p.lines, p.store)
    decreases |items|
  {
    if |items| > 0 {
      var init := items[..|items| - 1];
      SavedRowsAreFresh(store, init, step);
      var prev := ProcessAll(store, init, step);
      if !prev.crashed {
        var o := step(prev.store, items[|items| - 1]);
        assert StepKeeps(prev.store, items[|items| - 1], o);
        if o.line.Some? && o.line.value.Saved? {
          assert GrewTo(prev.store, o.store, o.line.value.row);
          SavedLineAppended(prev.lines, o.line.value, prev.store, o.store);
        } else if o.line.None? {
          CrashKeepsRows(prev.store, o.store, prev.lines);
        }
      }
    }
  }

  /** Appending a saved line for a freshly grown ledger keeps the saved rows
      fresh. */
  lemma SavedLineAppended(lines: seq<Line>, line: Line, before: Store, after: Store)
    requires line.Saved? && GrewTo(before, after, line.row)
    requires SavedRowsIncrease(lines) && SavedRowsWithin(lines, before)
    ensures SavedRowsIncrease(lines + [line]) && SavedRowsWithin(lines + [line], after)
  {
    var all := lines + [line];
    forall i | 0 <= i < |all| && all[i].Saved?
      ensures 2 <= all[i].row <= |RowsOf(after)|
      ensures i < |lines| ==> all[i].row < line.row
    {
      if i < |lines| {
        assert all[i] == lines[i];
      }
    }
  }

  /** The ledger a crash leaves has at least the rows it had. */
  lemma CrashKeepsRows(before: Store, after: Store, lines: seq<Line>)
    requires RowsOf(after) == RowsOf(GetOrCreateWorkbook(before))
    requires SavedRowsWithin(lines, before)
    ensures SavedRowsWithin(lines, after)
  {
  }

  /** Once the loop has crashed, the later attachments are not visited. */
  lemma {:induction false} CrashIsFinal(store: Store, items: seq<Media>, n: nat, step: Step)
    requires n <= |items|
    requires ProcessAll(store, items[..n], step).crashed
    ensures ProcessAll(store, items, step) == ProcessAll(store, items[..n], step)
    decreases |items| - n
  {
    if n < |items| {
      assert items[..n + 1][..n] == items[..n];
      CrashIsFinal(store, items, n + 1, step);
    } else {
      assert items[..n] == items;
    }
  }

  /** One more attachment, after a prefix that did not crash. */
  lemma ProcessAllStep(store: Store, items: seq<Media>, i: nat, step: Step)
    requires i < |items| && !ProcessAll(store, items[..i], step).crashed
    ensures var prev := ProcessAll(store, items[..i], step);
            var o := step(prev.store, items[i]);
            ProcessAll(store, items[..i + 1], step)
              == if o.line.None? then Progress(o.store, prev.lines, true)
                 else Progress(o.store, prev.lines + [o.line.value], false)
  {
    assert items[..i + 1][..i] == items[..i];
  }

  /** The `for i in range(num_media)` loop as the handler runs it. */
  method ProcessMedia(store: Store, items: seq<Media>, ctx: Ctx) returns (st: Store, lines: seq<Line>, crashed: bool)
    ensures Progress(st, lines, crashed) == ProcessAll(store, items, ItemStep(ctx))
  {
    st, lines, crashed := store, [], false;
    var i := 0;
    while i < |items| && !crashed
      invariant 0 <= i <= |items|
      invariant Progress(st, lines, crashed) == ProcessAll(store, items[..i], ItemStep(ctx))
    {
      ProcessAllStep(store, items, i, ItemStep(ctx));
      var o := ProcessItem(st, items[i], ctx);
      assert o == ItemStep(ctx)(st, items[i]);
      st := o.store;
      if o.line.None? {
        crashed := true;
      } else {
        lines := lines + [o.line.value];
      }
      i := i + 1;
    }
    if crashed {
      CrashIsFinal(store, items, i, ItemStep(ctx));
    } else {
      assert items[..i] == items;
    }
  }

  // ---------------------------------------------------------------------------
  // The reply
  // ---------------------------------------------------------------------------

  /** The success line, built from the record as the model returned it: an
      opening naming the category and the amount, then the details. */
  function SavedText(data: Record, row: nat, showFloat: real -> string): string {
    SavedOpening(data, showFloat) + SavedDetails(data, row, showFloat)
  }

  function SavedOpening(data: Record, showFloat: real -> string): string {
    "Kaydedildi! " + Show(Get(data, "kategori", Str("?")), showFloat) + " - "
      + Show(Get(data, "tutar", Str("?")), showFloat)
  }

  function SavedDetails(data: Record, row: nat, showFloat: real -> string): string {
    " " + Show(Get(data, "para_birimi", Str("TRY")), showFloat) + "\n"
      + "Satici: " + Show(Get(data, "satici", Str("")), showFloat) + "\n"
      + "Tarih: " + Show(Get(data, "tarih", Str("")), showFloat) + " | "
      + Show(Get(data, "belge_turu", Str("")), showFloat) + "\n"
      + "Odeme: " + Show(Get(data, "odeme_yontemi", Str("")), showFloat) + "\n"
      + "Excel satir: #" + NatToString(row)
  }

  /** The text of a result line. */
  function LineText(line: Line, showFloat: real -> string): (r: string)
    ensures r != ""
  {
    match line
    case Unsupported => UnsupportedText
    case NotRead => UnreadableText
    case Saved(data, row) => SavedText(data, row, showFloat)
  }

  /** `results`: the text of every line, in order. */
  function LineTexts(lines: seq<Line>, showFloat: real -> string): (r: seq<string>)
    ensures |r| == |lines|
    ensures forall i | 0 <= i < |lines| :: r[i] == LineText(lines[i], showFloat)
  {
    seq(|lines|, i requires 0 <= i < |lines| => LineText(lines[i], showFloat))
  }

  /** `"\n\n".join(results) or "Islem tamamlandi."`. */
  function ReplyText(texts: seq<string>): string {
    var joined := Join(texts, LineSeparator);
    if joined == "" then DoneText else joined
  }

  /** Since no result line is empty, the fallback text is the reply exactly
      when there are no lines, and otherwise the lines are joined in order. */
  lemma ReplyOfLines(lines: seq<Line>, showFloat: real -> string)
    ensures |lines| == 0 ==> ReplyText(LineTexts(lines, showFloat)) == DoneText
    ensures |lines| > 0 ==> ReplyText(LineTexts(lines, showFloat)) == Join(LineTexts(lines, showFloat), LineSeparator)
  {
    JoinEmpty(LineTexts(lines, showFloat), LineSeparator);
  }

  // ---------------------------------------------------------------------------
  // The handler
  // ---------------------------------------------------------------------------

  datatype Response = Reply(text: string) | ServerError

  /** The ledger after the request, and the response. */
  datatype Handled = Handled(store: Store, response: Response)

  /** `int(form.get("NumMedia", 0))`; `None` when `int()` raises. */
  function MediaCount(form: Form, env: Env): Option<int> {
    if "NumMedia" in form then env.parseInt(form["NumMedia"]) else Some(0)
  }

  /** `webhook()`: the ledger after the request, and the response. */
  function HandleWebhook(store: Store, form: Form, env: Env): (r: Handled)
    // an unparsable NumMedia fails the request before anything happens
    ensures MediaCount(form, env).None? ==> r == Handled(store, ServerError)
    // without media: the summary for a keyword, otherwise the help text
    ensures MediaCount(form, env) == Some(0) && IsSummaryCommand(Field(form, "Body", "")) ==>
              r == Handled(GenerateSummary(store, env.fmt).store, Reply(GenerateSummary(store, env.fmt).text))
    ensures MediaCount(form, env) == Some(0) && !IsSummaryCommand(Field(form, "Body", "")) ==>
              r == Handled(store, Reply(HelpText))
    // with media: the loop's ledger, and its lines joined, or a server error
    ensures MediaCount(form, env).Some? && MediaCount(form, env) != Some(0) ==>
              var p := ProcessAll(store, MediaItems(form, MediaCount(form, env).value),
                                  ItemStep(Ctx(env, Field(form, "From", UnknownSender), Field(form, "AccountSid", ""))));
              r.store == p.store
              && (p.crashed <==> r.response.ServerError?)
              && (!p.crashed ==> r.response == Reply(ReplyText(LineTexts(p.lines, env.fmt.showFloat))))
  {
    match MediaCount(form, env)
    case None => Handled(store, ServerError)
    case Some(count) =>
      var sender := Field(form, "From", UnknownSender);
      var body := Field(form, "Body", "");
      var ctx := Ctx(env, sender, Field(form, "AccountSid", ""));
      if count == 0 then
        if IsSummaryCommand(body) then
          var report := GenerateSummary(store, env.fmt);
          Handled(report.store, Reply(report.text))
        else Handled(store, Reply(HelpText))
      else
        var p := ProcessAll(store, MediaItems(form, count), ItemStep(ctx));
        if p.crashed then Handled(p.store, ServerError)
        else Handled(p.store, Reply(ReplyText(LineTexts(p.lines, env.fmt.showFloat))))
  }

  /** A negative `NumMedia` visits no attachment and answers with the fallback
      text, leaving the ledger alone. */
  lemma NegativeCountIsDone(store: Store, form: Form, env: Env)
    requires MediaCount(form, env).Some? && MediaCount(form, env).value < 0
    ensures HandleWebhook(store, form, env) == Handled(store, Reply(DoneText))
  {
    ReplyOfLines([], env.fmt.showFloat);
  }

  /** A message with a non-image attachment followed by a photo that reads as
      a non-empty, writable record, sent before any ledger exists: the ledger
      is created, the record becomes row 2, and the reply holds the
      "unsupported" line and then the confirmation for that row. */
  lemma MixedAttachmentsOnFreshLedger(store: Store, form: Form, env: Env, url: string, record: Record)
    requires store.Missing?
    requires MediaCount(form, env) == Some(2)
    requires var items := MediaItems(form, 2);
             !Accepted(items[0]) && Accepted(items[1]) && items[1].url == Some(url)
    requires AnalyzeImage(env.services, url, Field(form, "AccountSid", "")) == Some(Object(record))
    requires |record| > 0
    requires Writable(BuildValues(record, Field(form, "From", UnknownSender), env.clock(1)))
    ensures var a := AppendExpense(store, record, Field(form, "From", UnknownSender), env.clock(1));
            && a.row == Success(2)
            && HandleWebhook(store, form, env)
                 == Handled(a.store, Reply(UnsupportedText + LineSeparator + SavedText(record, a.row.value, env.fmt.showFloat)))
  {
    var ctx := Ctx(env, Field(form, "From", UnknownSender), Field(form, "AccountSid", ""));
    var a := AppendExpense(store, record, ctx.sender, env.clock(1));
    var lines := [Unsupported, Saved(record, a.row.value)];
    FirstAppendIsRowTwo(store, record, ctx.sender, env.clock(1));
    assert ProcessAll(store, MediaItems(form, 2), ItemStep(ctx)) == Progress(a.store, lines, false) by {
      MixedAttachmentsLoop(store, MediaItems(form, 2), ctx, record);
    }
    ReplyOfUnsupportedThenSaved(record, a.row.value, env.fmt.showFloat);
  }

  /** The reply of that scenario: the two lines, separated by a blank line. */
  lemma ReplyOfUnsupportedThenSaved(data: Record, row: nat, showFloat: real -> string)
    ensures ReplyText(LineTexts([Unsupported, Saved(data, row)], showFloat))
              == UnsupportedText + LineSeparator + SavedText(data, row, showFloat)
  {
    var texts := LineTexts([Unsupported, Saved(data, row)], showFloat);
    assert texts == [texts[0], texts[1]];
    ReplyOfTwo(texts[0], texts[1]);
  }

  /** The loop of that scenario: one "unsupported" line, then the saved row. */
  lemma MixedAttachmentsLoop(store: Store, items: seq<Media>, ctx: Ctx, record: Record)
    requires |items| == 2
    requires !Accepted(items[0]) && Accepted(items[1])
    requires AnalyzeImage(ctx.env.services, items[1].url.value, ctx.accountSid) == Some(Object(record))
    requires |record| > 0
    requires AppendExpense(store, record, ctx.sender, ctx.env.clock(items[1].index)).row.Success?
    ensures var a := AppendExpense(store, record, ctx.sender, ctx.env.clock(items[1].index));
            ProcessAll(store, items, ItemStep(ctx)) == Progress(a.store, [Unsupported, Saved(record, a.row.value)], false)
  {
    var step := ItemStep(ctx);
    assert step(store, items[0]) == ItemOutcome(store, Some(Unsupported));
    RecordIsSaved(store, items[1], ctx, record);
    assert step(store, items[1]) == ProcessItem(store, items[1], ctx);
    TwoItemsLoop(store, items, step);
  }

  /** A loop over one attachment that does not raise yields its line. */
  lemma OneItemLoop(store: Store, items: seq<Media>, step: Step)
    requires |items| == 1 && step(store, items[0]).line.Some?
    ensures var o := step(store, items[0]);
            ProcessAll(store, items, step) == Progress(o.store, [o.line.value], false)
  {
    assert items[..0] == [];
  }

  /** A loop over two attachments, neither of which raises, yields their two
      lines in order and the ledger the second one leaves. */
  lemma TwoItemsLoop(store: Store, items: seq<Media>, step: Step)
    requires |items| == 2 && step(store, items[0]).line.Some?
    requires step(step(store, items[0]).store, items[1]).line.Some?
    ensures var o1 := step(store, items[0]);
            var o2 := step(o1.store, items[1]);
            ProcessAll(store, items, step) == Progress(o2.store, [o1.line.value, o2.line.value], false)
  {
    OneItemLoop(store, items[..1], step);
    assert items[..1][0] == items[0];
    assert items[..2][..1] == items[..1];
    assert items[..2] == items;
  }

  /** Two result lines are joined by a blank line. */
  lemma ReplyOfTwo(x: string, y: string)
    requires x != ""
    ensures ReplyText([x, y]) == x + LineSeparator + y
  {
    assert [x, y][..1] == [x];
    assert Join([x, y], LineSeparator) == x + LineSeparator + y;
  }

  /** A message with one photo that reads as a record with amount 125.5 in
      category "Market/Gıda", on an existing ledger: exactly one row is added
      after the existing ones, holding that amount as a number and that
      category, in the category's colour; the reply is the confirmation for
      that row and opens with the category and the amount. */
  lemma OneImageScenario(store: Store, form: Form, env: Env, url: string, record: Record)
    requires store.Workbook? && |store.rows| >= 1
    requires MediaCount(form, env) == Some(1)
    requires Accepted(MediaItems(form, 1)[0]) && MediaItems(form, 1)[0].url == Some(url)
    requires AnalyzeImage(env.services, url, Field(form, "AccountSid", "")) == Some(Object(record))
    requires "tutar" in record && record["tutar"] == Float(125.5)
    requires "kategori" in record && record["kategori"] == Str("Market/Gıda")
    requires Writable(BuildValues(record, Field(form, "From", UnknownSender), env.clock(0)))
    ensures var r := HandleWebhook(store, form, env);
            var n := |store.rows|;
            && r.store.Workbook? && |r.store.rows| == n + 1 && r.store.rows[..n] == store.rows
            && |r.store.rows[n].cells| == Width
            && r.store.rows[n].cells[4] == FloatCell(125.5)
            && r.store.rows[n].cells[2] == TextCell("Market/Gıda")
            && r.store.rows[n].fill == Some("C8E6C9")
            && r.response == Reply(SavedText(record, n + 1, env.fmt.showFloat))
            && StartsWith(r.response.text, "Kaydedildi! " + "Market/Gıda" + " - " + env.fmt.showFloat(125.5))
  {
    var ctx := Ctx(env, Field(form, "From", UnknownSender), Field(form, "AccountSid", ""));
    var a := AppendExpense(store, record, ctx.sender, env.clock(0));
    var text := SavedText(record, a.row.value, env.fmt.showFloat);
    AppendMarketRecord(store, record, ctx.sender, env.clock(0));
    assert HandleWebhook(store, form, env) == Handled(a.store, Reply(text)) by {
      OneImageLoop(store, MediaItems(form, 1), ctx, record);
      ReplyOfSaved(record, a.row.value, env.fmt.showFloat);
    }
    SavedTextOpening(record, a.row.value, env.fmt.showFloat);
  }

  /** The ledger side of that scenario: the record lands in the row after the
      last one, with its amount and category, in the category's colour. */
  lemma AppendMarketRecord(store: Store, record: Record, sender: string, now: Now)
    requires store.Workbook? && |store.rows| >= 1
    requires "tutar" in record && record["tutar"] == Float(125.5)
    requires "kategori" in record && record["kategori"] == Str("Market/Gıda")
    requires Writable(BuildValues(record, sender, now))
    ensures var a := AppendExpense(store, record, sender, now);
            var n := |store.rows|;
            && a.row == Success(n + 1)
            && a.store.Workbook? && |a.store.rows| == n + 1 && a.store.rows[..n] == store.rows
            && |a.store.rows[n].cells| == Width
            && a.store.rows[n].cells[4] == FloatCell(125.5)
            && a.store.rows[n].cells[2] == TextCell("Market/Gıda")
            && a.store.rows[n].fill == Some("C8E6C9")
  {
    var a := AppendExpense(store, record, sender, now);
    var n := |store.rows|;
    var values := BuildValues(record, sender, now);
    MarketValues(record, sender, now);
    assert a.row == Success(n + 1);
    MarketRow(a.store.rows[n], values);
  }

  lemma MarketValues(record: Record, sender: string, now: Now)
    requires "tutar" in record && record["tutar"] == Float(125.5)
    requires "kategori" in record && record["kategori"] == Str("Market/Gıda")
    ensures var values := BuildValues(record, sender, now);
            values[2] == Str("Market/Gıda") && values[4] == Float(125.5)
  {
  }

  /** A new row written for the amount 125.5 in `Market/Gıda`. */
  lemma MarketRow(row: Row, values: seq<Value>)
    requires |values| == Width && NewRowHolds(row, values)
    requires values[2] == Str("Market/Gıda") && values[4] == Float(125.5)
    ensures |row.cells| == Width
    ensures row.cells[4] == FloatCell(125.5) && row.cells[2] == TextCell("Market/Gıda")
    ensures row.fill == Some("C8E6C9")
  {
    NamedColour(MarketGida);
    assert row.cells[4] == ToCell(values[4]).value;
    assert row.cells[2] == ToCell(values[2]).value;
  }

  /** The loop of that scenario: the one photo is saved. */
  lemma OneImageLoop(store: Store, items: seq<Media>, ctx: Ctx, record: Record)
    requires |items| == 1 && Accepted(items[0])
    requires AnalyzeImage(ctx.env.services, items[0].url.value, ctx.accountSid) == Some(Object(record))
    requires |record| > 0
    requires AppendExpense(store, record, ctx.sender, ctx.env.clock(items[0].index)).row.Success?
    ensures var a := AppendExpense(store, record, ctx.sender, ctx.env.clock(items[0].index));
            ProcessAll(store, items, ItemStep(ctx)) == Progress(a.store, [Saved(record, a.row.value)], false)
  {
    RecordIsSaved(store, items[0], ctx, record);
    assert ItemStep(ctx)(store, items[0]) == ProcessItem(store, items[0], ctx);
    OneItemLoop(store, items, ItemStep(ctx));
  }

  /** A single confirmation is the whole reply. */
  lemma ReplyOfSaved(data: Record, row: nat, showFloat: real -> string)
    ensures ReplyText(LineTexts([Saved(data, row)], showFloat)) == SavedText(data, row, showFloat)
  {
    var texts := LineTexts([Saved(data, row)], showFloat);
    assert texts == [texts[0]];
  }

  /** The confirmation opens with the category and the amount as the model
      returned them. */
  lemma SavedTextOpening(data: Record, row: nat, showFloat: real -> string)
    ensures StartsWith(SavedText(data, row, showFloat),
                       "Kaydedildi! " + Show(Get(data, "kategori", Str("?")), showFloat) + " - "
                       + Show(Get(data, "tutar", Str("?")), showFloat))
  {
    var head := SavedOpening(data, showFloat);
    assert (head + SavedDetails(data, row, showFloat))[..|head|] == head;
  }

  /** A message with no attachment whose body is "summary" gets the summary,
      and the summary is never mistaken for the help text: whatever the
      ledger's state, its text differs from the help message. */
  lemma SummaryKeywordScenario(store: Store, form: Form, env: Env)
    requires MediaCount(form, env) == Some(0)
    requires Field(form, "Body", "") == "summary"
    ensures var r := HandleWebhook(store, form, env);
            && r == Handled(GenerateSummary(store, env.fmt).store, Reply(GenerateSummary(store, env.fmt).text))
            && r.response != Reply(HelpText)
  {
    SummaryCommandLowerCase();
    SummaryIsNotHelp(store, env.fmt);
  }

  /** Every text the summary can produce differs from the help message. */
  lemma SummaryIsNotHelp(store: Store, fmt: Formatting)
    ensures GenerateSummary(store, fmt).text != HelpText
  {
    var r := GenerateSummary(store, fmt);
    HelpOpening();
    var book := GetOrCreateWorkbook(store);
    if book.Unreadable? {
      assert r.text == FailurePrefix + book.reason;
      assert r.text[0] == 'O';
    } else if |DataRows(RowsOf(book))| == 0 {
      assert r.text[0] == 'H';
    } else if MaxColumn(RowsOf(book)) <= AmountColumn {
      assert r.text == FailurePrefix + IndexErrorText;
      assert r.text[0] == 'O';
    } else {
      var t := Join(ReportLines(DataRows(RowsOf(book)), fmt), "\n");
      ListingOpening(DataRows(RowsOf(book)), fmt);
      assert t[0] == t[..|Title|][0];
    }
  }

  lemma HelpOpening()
    ensures |HelpText| >= 1 && HelpText[0] == 'M'
  {
    assert HelpText[..8] == "Merhaba!";
  }

  /** The listing opens with its title. */
  lemma ListingOpening(data: seq<seq<Cell>>, fmt: Formatting)
    ensures StartsWith(Join(ReportLines(data, fmt), "\n"), Title)
  {
  }
}

=== FILE: wrappers.dfy ===
/** Optional values and success/failure outcomes shared by the whole model. */
module Wrappers {

  /** A value that may be absent: Python's `None` versus a present value. */
  datatype Option<+T> = None | Some(value: T) {
    function GetOr(default: T): T {
      match this
      case Some(v) => v
      case None => default
    }
  }

  /** The outcome of a step that can raise: the value it returns, or the error it raises. */
  datatype Result<+R, +E> = Success(value: R) | Failure(error: E)
}
